=== FILE: README.md ===
# Amalgamator: a Dafny model of the server rules and the client state machines

Amalgamator pairs two concepts into an *amalgamation*. Users then judge how
plausible the connection is by posting *contributions*, each one a short text
with an evaluation (plausible, not plausible, irrelevant). This project models
the application's business rules as pure functions and proves properties of
them:

- **Amalgamations.** Creating one is rate-limited to one per user per hour.
  Spending a contribution point skips the wait. Only the creator may change
  an amalgamation's status, and a random amalgamation can be picked.
- **Contributions.** Creating one updates the amalgamation's four vote
  counters and its contributor list, and can earn the author a point. A
  contribution can be listed, edited with history, soft-deleted with a
  penalty, and liked or unliked.
- **Badges.** A badge has a unique name and is awarded at most once per user.
- **Roget import.** Roget's thesaurus can be imported once. Each CSV row maps
  to one taxonomy record.
- **Schemas.** The Mongoose schemas supply the record types, enumerations,
  defaults and required fields.
- **Client.** The Redux amalgamation slice and the explorer wizard are
  modelled as pure state transitions.

## How the model is built

The database is a `Store`: five maps from ids to immutable records. Every
route handler is a function from a store and a request to a `Reply`. A reply
holds the response and the store afterwards. The responses are:

- `Ok`;
- `BadRequest` (400, with its message);
- `Unauthorized` (401);
- `NotFound` (404);
- `ServerError`: the catch-all 500, for a failed validation on save or a property read on a missing record;
- `NoReply`: a request that is never answered.

A handler that throws after an earlier write keeps that write, as the
sequence of awaited saves does.

Conventions:

- Contribution points are counted in tenths of a point, so the 0.1 removal penalty is exact.
- Time is integer milliseconds. "Less than an hour" means `now - last < 3600000`.
- Ids the database would assign are parameters that must be fresh.
- The current time and the random draw are parameters.
- A collection's natural order (the order `findOne().skip(i)` walks) is ascending id order.

`Consistent` is the store invariant. It says:

- every stored record passes its schema validation;
- vote totals add up;
- the contributor, liker and badge lists have no duplicates;
- like counters match their liker lists;
- every contribution belongs to a stored amalgamation;
- the unique indexes hold.

Saves of records that were already stored are not re-validated in the model.
Instead, `Invariants` proves that every handler preserves `Consistent`, so such
a re-validation could not fail.

`TallyAudit` treats the vote counters as a cache of the live contributions and
proves which handlers keep that cache exact.

Quirks of the code that the model keeps as written:

- **Removed records count towards points.** A point is earned when the author's
  number of contribution records, removed ones included, reaches a multiple of
  ten. The comment at `contributions.js:50` speaks of "10 contributions = 1
  point", and the count at `contributions.js:52` filters on the author only,
  with no condition on `isRemoved`, so removed records count too.
- **New users are rate-limited.** A new user's `lastAmalgamationTime` defaults
  to the creation instant. A user with no points is therefore refused for the
  whole first hour (`Points.NewUserIsRateLimited`). This contradicts
  `backend/tests/api.test.js:75-99`: that test registers a user (lines 37-44)
  and at once expects creating an amalgamation to answer 200. The
  registration route, which might override the default, is not part of this
  model.
- **The charge happens before validation.** The creation gate writes the
  charged user before the new amalgamation is validated. A request that then
  fails validation still costs the hour and the point.
- **A repeated delete is not refused.** Nothing stops a second DELETE of an
  already removed contribution. See "Findings".
- **Text length is counted in UTF-16 code units.** The 255 limit on a
  contribution's text is the schema's `maxlength`, which counts code units,
  so a character outside the Basic Multilingual Plane counts twice
  (`Schema.EmojiTextTooLong`).

## Model

| member | source | states |
|---|---|---|
| Schema.ParseStatus | backend/models/Amalgamation.js:35-39 | a status string is accepted exactly when it names one of open, focused, closed, and the value accepted is the one with that name |
| Schema.ParseMode | backend/models/Amalgamation.js:40-44 | a mode string is accepted exactly when it names one of focus, innovator, play |
| Schema.ParseEvaluation | amalgamator-app-clean/amalgamator-app/backend/models/Contribution.js:19-23 | an evaluation string is accepted exactly when it names one of plausible, notPlausible, irrelevant |
| Schema.ParseCategory | amalgamator-app-clean/amalgamator-app/backend/models/Badge.js:21-25 | a category string is accepted exactly when it names one of pioneer, veteran, contributor |
| Schema.NewAmalgamation | backend/models/Amalgamation.js:35-87 | a new amalgamation stores the given terms, mode, creator and time; it is open, with no contributions, no AI perspective and not high-volume; all counters are zero, so its total equals the sum of the three; its creator is its one duplicate-free contributor; it is valid exactly when both term texts are non-empty |
| Schema.Utf16Length | amalgamator-app-clean/amalgamator-app/backend/models/Contribution.js:17 | a string's UTF-16 length lies between its character count and twice that, and equals the character count exactly when every character is in the Basic Multilingual Plane |
| Schema.ValidText | amalgamator-app-clean/amalgamator-app/backend/models/Contribution.js:14-18 | a valid text is non-empty and at most 255 characters; when every character is in the Basic Multilingual Plane it is valid exactly when it has 1 to 255 characters |
| Schema.EmojiTextTooLong | amalgamator-app-clean/amalgamator-app/backend/models/Contribution.js:17 | a text of 200 emoji is rejected although it has only 200 characters |
| Schema.NewContribution | amalgamator-app-clean/amalgamator-app/backend/models/Contribution.js:14-48 | a new contribution stores the given amalgamation, author, text, evaluation and time; it has zero likes matching its empty liker list, is neither removed nor edited, has no history, and is valid exactly when its text is non-empty and at most 255 UTF-16 code units long |
| Schema.NormalizeEmail | backend/models/User.js:11-17 | a stored email is the trimmed input with each character lowercased in place: same length, no surrounding whitespace and no upper-case letter |
| Schema.NormalizeEmailIdempotent | backend/models/User.js:11-17 | normalising an already stored email changes nothing |
| Schema.NewUser | backend/models/User.js:5-59 | a new account stores the trimmed username and the normalised email, has zero points and no badges, and has its last creation time equal to its creation time; it is valid exactly when username, email, password and social-media link are non-empty after normalisation |
| Store.SaveNewUser | backend/models/User.js:5-17 | saving an account fails validation exactly when a required field is empty; otherwise it succeeds exactly when no stored user has the same username or email, and a clash is rejected as a duplicate key; a successful save keeps the store consistent |
| Store.SaveNewUserAsWritten | backend/models/User.js:2 | as written, no new account is ever saved: an invalid one fails validation and every valid one is rejected by the password-hashing hook |
| Store.FirstAccountRejectedAsWritten | backend/models/User.js:65-75 | a well-formed first account on an empty database is stored by the intended save and rejected by the save as written |
| Store.AsWrittenRejectsEverySavedAccount | backend/models/User.js:65-75 | the two saves agree on validation, and every account the intended save stores is rejected as written |
| Text.Trim | backend/models/User.js:9 | trimming returns the middle of the string, with only whitespace cut from either end and none left at either end |
| Text.TrimIdempotent | backend/models/User.js:9 | trimming twice is trimming once |
| Text.Split | amalgamator-app-clean/amalgamator-app/backend/routes/data.js:60 | a split always yields at least one piece and no piece contains the separator |
| Text.JoinSplit | amalgamator-app-clean/amalgamator-app/backend/routes/data.js:60 | joining the pieces of a split with the separator gives back the original string |
| Text.SplitJoin | amalgamator-app-clean/amalgamator-app/backend/routes/data.js:60 | splitting a join of separator-free pieces gives back the pieces |
| Text.ToLower | backend/models/User.js:16 | lowercasing keeps the length and leaves no upper-case letter |
| Text.ToLowerIdempotent | backend/models/User.js:16 | lowercasing twice is lowercasing once |
| Sorting.LexPairLeIsTotalPreorder | amalgamator-app-clean/amalgamator-app/backend/routes/badges.js:11 | ordering by one string field and then another compares any two records and is transitive, so a listing can be sorted by it |
| Points.ChargeForCreation | backend/routes/amalgamations.js:15-34 | the gate refuses exactly when less than an hour has passed and less than one point is held; otherwise the user is stamped with the current time and loses one point exactly when the hour has not passed |
| Points.AccrueForContribution | amalgamator-app-clean/amalgamator-app/backend/routes/contributions.js:50-57 | the author gains exactly one point when the record count is a multiple of ten, and nothing else changes |
| Points.DeductForRemoval | amalgamator-app-clean/amalgamator-app/backend/routes/contributions.js:159-162 | removal costs a tenth of a point, and the balance never goes below zero |
| Points.NewUserIsRateLimited | backend/models/User.js:56-59 | a new account with default fields is refused creation for its whole first hour |
| Points.RemovalDoesNotUndoAward | amalgamator-app-clean/amalgamator-app/backend/routes/contributions.js:159-162 | a point earned and then one removal leave nine tenths of a point more than before |
| Points.CreationsWithinHourCostPoints | backend/routes/amalgamations.js:21-30 | within the hour after a creation, a user can create as many amalgamations as whole points held (or as attempted, if fewer), each costing exactly one point |
| Points.AccrualCountsMultiplesOfTen | amalgamator-app-clean/amalgamator-app/backend/routes/contributions.js:50-57 | going from n to n+k records earns one point for each multiple of ten crossed |
| AmalgamationRoutes.RateLimitMessageMentionsHour | backend/routes/amalgamations.js:22-24 | the refusal message contains the word "hour" |
| AmalgamationRoutes.ModeOrDefault | backend/routes/amalgamations.js:40 | a missing mode reads as play, and a given mode is parsed as itself |
| AmalgamationRoutes.CreateAmalgamation | backend/routes/amalgamations.js:10-51 | a missing user is a 500 with no write; a refusal (400) happens exactly under the rate-limit condition and changes nothing; otherwise the user is stamped and charged before anything else, with no other field of the user changed; the record is stored exactly when the mode (or `play`) is valid and both term texts are non-empty; it is open, has zero votes, has the creator as its only contributor, and nothing else changes |
| AmalgamationRoutes.CreateRefusedWithinHourWithoutPoints | backend/routes/amalgamations.js:18-25 | inside the hour without a point, creation is refused and the store is unchanged |
| AmalgamationRoutes.CreateWithPointWithinHour | backend/routes/amalgamations.js:28-30 | inside the hour with a point, a well-formed creation succeeds and costs exactly one point |
| AmalgamationRoutes.CreateFreeAfterHour | backend/routes/amalgamations.js:18-34 | after a full hour (exactly one hour included), a well-formed creation succeeds and costs nothing |
| AmalgamationRoutes.SecondCreationWithinHourRefused | backend/routes/amalgamations.js:33-34 | without points, a second creation less than an hour after an accepted one is refused |
| AmalgamationRoutes.UpdateStatus | backend/routes/amalgamations.js:120-148 | unknown id is 404 and anyone but the creator is 401, both with no change; an empty status changes nothing; a status outside the enumeration is a 500; otherwise the creator's request succeeds and only the status changes, to the one named |
| AmalgamationRoutes.RandomIndex | backend/routes/amalgamations.js:104-105 | the drawn index is below the count whenever the count is positive |
| AmalgamationRoutes.RandomIndexReachesAll | backend/routes/amalgamations.js:105 | every index below the count is drawn by some draw |
| AmalgamationRoutes.RandomAmalgamation | backend/routes/amalgamations.js:102-115 | the pick is null exactly when there are no amalgamations, and otherwise is the stored amalgamation at the drawn index in collection order |
| AmalgamationRoutes.RandomPicksEvery | backend/routes/amalgamations.js:102-106 | every stored amalgamation is picked by some draw in [0, 1): the draw i/count picks the i-th in collection order |
| ContributionRoutes.JoinAmalgamation | amalgamator-app-clean/amalgamator-app/backend/routes/contributions.js:31-46 | the amalgamation gains the contribution's id at the end, the author as contributor only if absent, and one vote for exactly that evaluation, and no other field changes; a valid amalgamation stays valid |
| ContributionRoutes.CastVote | amalgamator-app-clean/amalgamator-app/backend/routes/contributions.js:38-46 | casting adds one to the total and to exactly the evaluation's counter, so total = sum of the three is kept |
| ContributionRoutes.WithdrawVote | amalgamator-app-clean/amalgamator-app/backend/routes/contributions.js:145-155 | withdrawing subtracts one from the total and from exactly the evaluation's counter, keeping total = sum of the three |
| ContributionRoutes.WithdrawUndoesCast | amalgamator-app-clean/amalgamator-app/backend/routes/contributions.js:145-155 | withdrawing a vote undoes casting it |
| ContributionRoutes.RecordCountAfterInsert | amalgamator-app-clean/amalgamator-app/backend/routes/contributions.js:52 | saving a record raises its author's record count by one and no one else's |
| ContributionRoutes.CreateContribution | amalgamator-app-clean/amalgamator-app/backend/routes/contributions.js:10-64 | unknown amalgamation is 404 with no write; invalid text or evaluation is a 500 with no write; otherwise the record is stored, the amalgamation gains its id, gains the author as contributor only if absent, and gains one vote for exactly that evaluation, with no other field of it changed; the author gains a point exactly when the record count (removed records included) is a multiple of ten, and no other field of the author changes; a missing author then makes the reply a 500 after those writes |
| ContributionRoutes.ListContributions | amalgamator-app-clean/amalgamator-app/backend/routes/contributions.js:69-83 | the listing holds exactly the amalgamation's non-removed contributions, each once, newest first |
| ContributionRoutes.EditContribution | amalgamator-app-clean/amalgamator-app/backend/routes/contributions.js:88-123 | unknown id is 404 and a non-author is 401, both with no change; a text the schema rejects (empty or over 255 UTF-16 code units) is a 500 with no change; otherwise the author's edit succeeds: the history grows by one entry holding the time and the old text, the earlier entries stay, the text is replaced and the record marked edited |
| ContributionRoutes.DeleteContribution | amalgamator-app-clean/amalgamator-app/backend/routes/contributions.js:128-172 | unknown id is 404 and a non-author is 401, both with no change; otherwise the record is marked removed, one vote for its evaluation is withdrawn, the author loses a tenth of a point floored at zero, and a missing amalgamation or author is a 500 after the earlier writes |
| ContributionRoutes.Toggle | amalgamator-app-clean/amalgamator-app/backend/routes/contributions.js:185-196 | a liker is filtered out, the others keeping their order, with one like fewer, a new liker is appended with one more, and other likers are untouched; likes = number of likers is kept |
| ContributionRoutes.ToggleLike | amalgamator-app-clean/amalgamator-app/backend/routes/contributions.js:177-207 | unknown id is 404 with no change; otherwise only that record's like state is toggled |
| ContributionRoutes.LikeThenUnlikeRestores | amalgamator-app-clean/amalgamator-app/backend/routes/contributions.js:185-196 | liking then unliking restores the record exactly |
| ContributionRoutes.UnlikeThenLikeRestoresLikers | amalgamator-app-clean/amalgamator-app/backend/routes/contributions.js:185-196 | unliking then liking restores the like count and the set of likers |
| ContributionRoutes.RemoveAllAppended | amalgamator-app-clean/amalgamator-app/backend/routes/contributions.js:189-191 | filtering out a liker who was just appended gives back the earlier list |
| TallyAudit.MatchingTallyIsConsistent | backend/models/Amalgamation.js:45-60 | counters that count the live contributions satisfy total = sum of the three |
| TallyAudit.CreateAmalgamationKeepsTallies | backend/routes/amalgamations.js:37-45 | a new amalgamation's zero counters count its (no) live contributions |
| TallyAudit.UpdateStatusKeepsTallies | backend/routes/amalgamations.js:136-139 | a status change keeps every counter equal to its live-contribution count |
| TallyAudit.CreateContributionKeepsTallies | amalgamator-app-clean/amalgamator-app/backend/routes/contributions.js:38-48 | creating a contribution keeps every counter equal to its live-contribution count |
| TallyAudit.EditContributionKeepsTallies | amalgamator-app-clean/amalgamator-app/backend/routes/contributions.js:104-114 | an edit keeps every counter equal to its live-contribution count |
| TallyAudit.ToggleLikeKeepsTallies | amalgamator-app-clean/amalgamator-app/backend/routes/contributions.js:185-198 | a like keeps every counter equal to its live-contribution count |
| TallyAudit.DeleteLiveContributionKeepsTallies | amalgamator-app-clean/amalgamator-app/backend/routes/contributions.js:141-157 | deleting a contribution that is still live keeps every counter equal to its live-contribution count |
| TallyAudit.DoubleDeleteBreaksTallies | amalgamator-app-clean/amalgamator-app/backend/routes/contributions.js:128-157 | deleting the same live contribution twice succeeds both times and leaves counters that no longer count the live contributions |
| TallyAudit.DeleteContributionOnce | amalgamator-app-clean/amalgamator-app/backend/routes/contributions.js:128-172 | with the guard, a repeated delete is refused with no change, every other request behaves as written, and the counters keep counting the live contributions |
| BadgeRoutes.ListBadges | amalgamator-app-clean/amalgamator-app/backend/routes/badges.js:9-17 | the listing holds every stored badge exactly once, ordered by category and then name |
| BadgeRoutes.Populate | amalgamator-app-clean/amalgamator-app/backend/routes/badges.js:24 | the populated list holds exactly the held ids that have a badge, and when all do it is the held list in order |
| BadgeRoutes.UserBadges | amalgamator-app-clean/amalgamator-app/backend/routes/badges.js:22-38 | an unknown user is 404; otherwise the reply holds exactly the user's held badges, and when every held id has a badge they come one per id in the order the user holds them |
| BadgeRoutes.CreateBadge | amalgamator-app-clean/amalgamator-app/backend/routes/badges.js:43-68 | a name already in use is 400 with nothing inserted; the badge is stored exactly when the name is free, every required field is non-empty and the category is valid; names stay unique |
| BadgeRoutes.CreateBadgeTwiceRefused | amalgamator-app-clean/amalgamator-app/backend/routes/badges.js:47-51 | after a badge is created, creating the same name again is refused with no change |
| BadgeRoutes.AwardBadge | amalgamator-app-clean/amalgamator-app/backend/routes/badges.js:73-102 | a missing badge is 404, checked before a missing user (404); a badge already held is 400 with no change; otherwise exactly its id is appended to the user's badges; a duplicate-free badge list stays duplicate-free |
| BadgeRoutes.AwardTwiceHoldsOnce | amalgamator-app-clean/amalgamator-app/backend/routes/badges.js:85-92 | awarding the same badge twice refuses the second award and leaves the badge exactly once in the user's list |
| DataRoutes.Cell | amalgamator-app-clean/amalgamator-app/backend/routes/data.js:56-59 | a cell is non-empty exactly when the column is present with non-empty text, and is then that text |
| DataRoutes.Terms | amalgamator-app-clean/amalgamator-app/backend/routes/data.js:60 | an empty cell gives no terms; otherwise the i-th term is the i-th comma-separated piece trimmed, so each is comma-free |
| DataRoutes.MapRow | amalgamator-app-clean/amalgamator-app/backend/routes/data.js:54-61 | a row becomes a Roget record with each level taken from its column or empty and the terms those of its terms cell, and the record is valid exactly when the first-level column is present and non-empty |
| DataRoutes.TermsRoundTrip | amalgamator-app-clean/amalgamator-app/backend/routes/data.js:60 | when no piece has surrounding whitespace, the stored terms joined with commas give the cell back |
| DataRoutes.TermsFromJoin | amalgamator-app-clean/amalgamator-app/backend/routes/data.js:60 | trimmed, comma-free terms written as one cell are imported back as the same terms |
| DataRoutes.MapRows | amalgamator-app-clean/amalgamator-app/backend/routes/data.js:54-61 | one record per row, in row order |
| DataRoutes.ImportRoget | amalgamator-app-clean/amalgamator-app/backend/routes/data.js:38-70 | 400 with nothing inserted exactly when Roget records exist; no reply and nothing inserted exactly when some row lacks a first level; otherwise one record per row under fresh ids, earlier records kept, and the count equals the number of rows |
| DataRoutes.ImportOnlyOnce | amalgamator-app-clean/amalgamator-app/backend/routes/data.js:41-44 | after a successful non-empty import, a second import is refused with no change |
| DataRoutes.ImportKeepsDataValid | backend/models/HierarchicalData.js:9-12 | an import never stores a record without a first level |
| DataRoutes.ListAll | amalgamator-app-clean/amalgamator-app/backend/routes/data.js:10-19 | the listing holds every taxonomy record exactly once, ordered by source and then first level |
| DataRoutes.ListBySource | amalgamator-app-clean/amalgamator-app/backend/routes/data.js:24-33 | the listing holds exactly the records of the named source, each once, ordered by first level |
| DataRoutes.UnknownSourceListsNothing | amalgamator-app-clean/amalgamator-app/backend/routes/data.js:24-33 | a source name outside the enumeration lists nothing |
| Invariants.CreateAmalgamationConsistent | backend/routes/amalgamations.js:10-51 | creation keeps the store consistent |
| Invariants.UpdateStatusConsistent | backend/routes/amalgamations.js:120-148 | a status update keeps the store consistent |
| Invariants.CreateContributionConsistent | amalgamator-app-clean/amalgamator-app/backend/routes/contributions.js:10-64 | creating a contribution keeps the store consistent, including total = sum of the three and duplicate-free contributors |
| Invariants.EditContributionConsistent | amalgamator-app-clean/amalgamator-app/backend/routes/contributions.js:88-123 | an edit keeps the store consistent, so no stored text exceeds 255 UTF-16 code units |
| Invariants.DeleteContributionConsistent | amalgamator-app-clean/amalgamator-app/backend/routes/contributions.js:128-172 | a delete keeps the store consistent, including total = sum of the three |
| Invariants.ToggleLikeConsistent | amalgamator-app-clean/amalgamator-app/backend/routes/contributions.js:177-207 | a like keeps the store consistent, including likes = number of likers |
| Invariants.CreateBadgeConsistent | amalgamator-app-clean/amalgamator-app/backend/routes/badges.js:43-68 | badge creation keeps the store consistent, including unique badge names |
| Invariants.AwardBadgeConsistent | amalgamator-app-clean/amalgamator-app/backend/routes/badges.js:73-102 | an award keeps the store consistent, including duplicate-free badge lists and unique usernames and emails |
| Invariants.ImportRogetConsistent | amalgamator-app-clean/amalgamator-app/backend/routes/data.js:38-70 | the import keeps the store consistent |
| AmalgamationSlice.ReplaceById | frontend/src/redux/slices/amalgamationSlice.js:26-31 | the list keeps its length, items with the payload's id become the payload, and the rest are unchanged |
| AmalgamationSlice.PrependContribution | frontend/src/redux/slices/amalgamationSlice.js:32-39 | without a current record nothing happens; otherwise the contribution is put first and the earlier ones follow in order |
| AmalgamationSlice.Reduce | frontend/src/redux/slices/amalgamationSlice.js:13-50 | each action touches only its own part of the state: the list changes only on the three list actions, the current record on fetching one or adding a contribution (which puts it first among the current record's contributions), and the error only on setting or clearing it; loading is set only by setLoading and ended by every fetch, change or error |
| AmalgamationSlice.UpdateIdempotent | frontend/src/redux/slices/amalgamationSlice.js:26-31 | applying the same update twice is the same as once |
| AmalgamationSlice.UpdateAfterCreate | frontend/src/redux/slices/amalgamationSlice.js:22-31 | creating an item and then updating it leaves the update at the head and the earlier list after it |
| AmalgamationSlice.UpdateUnknownIdKeepsList | frontend/src/redux/slices/amalgamationSlice.js:26-31 | an update whose id matches no item leaves the list unchanged |
| AmalgamationSlice.SetErrorThenClear | frontend/src/redux/slices/amalgamationSlice.js:43-49 | setting and then clearing an error leaves the state as before except that loading has ended and the error is empty |
| AmalgamationSlice.FirstFetch | frontend/src/redux/slices/amalgamationSlice.js:3-17 | from the initial state, fetching the list shows exactly that list, with nothing selected, loading ended and no error |
| Explorer.RenderedScreens | frontend/src/pages/AmalgamationExplorer.js:291-293 | at most one screen renders: the mode tab at step 0, the focus screen at step 1 in focus mode, the term screen at step 1 in other modes or at step 2 in focus mode |
| Explorer.ExactlyOneScreen | frontend/src/pages/AmalgamationExplorer.js:291-293 | exactly one screen renders exactly on the three valid steps |
| Explorer.Shown | frontend/src/pages/AmalgamationExplorer.js:291-293 | the shown screen exists exactly on a valid step and is the one rendered |
| Explorer.Step | frontend/src/pages/AmalgamationExplorer.js:40-60 | a mode change sets the mode and resets the step to 0; Next and Back move the step by exactly one and touch nothing else; choosing the focus, first or second concept sets exactly that field; submitting only starts loading |
| Explorer.EnabledKeepsValidStep | frontend/src/pages/AmalgamationExplorer.js:40-51 | every event the shown screen offers leads to a valid step again |
| Explorer.InitialShowsModeSelection | frontend/src/pages/AmalgamationExplorer.js:26-27 | the wizard opens in play mode at step 0 on the mode tab |
| Explorer.BackUndoesNext | frontend/src/pages/AmalgamationExplorer.js:45-51 | Back after Next restores the state |
| Explorer.FocusContinueNeedsFocus | frontend/src/pages/AmalgamationExplorer.js:179-186 | on the focus screen, Continue is enabled exactly when a focus concept is chosen |
| Explorer.SubmitNeedsConcepts | frontend/src/pages/AmalgamationExplorer.js:272 | on the concepts screen, Explore Connection is enabled exactly when the first concept is chosen and, outside focus mode, the second one too |
| Explorer.RunKeepsOneScreen | frontend/src/pages/AmalgamationExplorer.js:288-296 | after any sequence of offered events the page shows exactly one screen |
| Explorer.TermOptions | frontend/src/pages/AmalgamationExplorer.js:214-258 | in focus mode the one field offers exactly the suggestions other than the focus concept; otherwise the first field offers all suggestions and the second exactly those other than the first concept |
| Explorer.PageTermOptions | frontend/src/pages/AmalgamationExplorer.js:34-36 | the page's concept fields, one in focus mode and two otherwise, offer only the sample suggestions, and the first field outside focus mode offers all of them |
| Explorer.FocusOptionsKeepOrder | frontend/src/pages/AmalgamationExplorer.js:216 | in focus mode a suggestion other than the focus concept keeps its place among the options: those from earlier suggestions come before it and those from later ones after it |
| Common.RemoveAll | frontend/src/pages/AmalgamationExplorer.js:216 | the result holds exactly the elements other than the removed one, is shorter by its number of occurrences, and stays duplicate-free |
| Common.RemoveAllConcat | frontend/src/pages/AmalgamationExplorer.js:216 | filtering keeps the order: filtering a concatenation concatenates the filtered parts |

## Left out

- HTTP routing, the auth middleware, Mongoose queries and `populate` projections, and the database connection are not modelled. Handlers take the authenticated user id as a parameter.
- GET of all amalgamations and GET of one amalgamation are not modelled: they are plain reads. Route shadowing of `/random` by `/:id` is a routing concern and is not modelled either; random selection is modelled as a function with the draw passed in.
- The term search route is not modelled, because it relies on MongoDB regular-expression semantics.
- Reading the CSV file and the parser stream are not modelled. The import takes the parsed rows.
- DataRoutes.ImportRoget: a row without a first level is modelled as a request that gets no reply and changes nothing; that the unhandled rejection also ends the server process (`backend/server.js` installs no handler) is not modelled, because the model has no process state.
- Password hashing and JWT handling are not modelled; they are library calls. Only the effect of the hashing hook on a save is modelled (see "Findings").
- The registration route is not part of this model. Account creation is modelled only through the schema (`Store.SaveNewUser`).
- Floating-point arithmetic is not modelled. Points are exact tenths and times are exact milliseconds.
- Concurrency and the atomicity of several awaited writes are not modelled. Each handler is one atomic step that keeps the writes made before an exception.
- Malformed ObjectIds (`err.kind === 'ObjectId'`) are not modelled. Ids are naturals, and an absent id is simply missing from the map.
- Text.ToLower: lowercases ASCII letters only, because full Unicode case mapping is out of scope.
- Schema.Utf16Length: characters are Unicode scalar values, so unpaired surrogates in the request text, which JavaScript strings can hold, are not modelled.
- Sorting.Entries: a collection's natural order is modelled as ascending id order, because MongoDB does not promise one.
- BadgeRoutes.CreateBadge: an absent request field is treated as an empty string, because the query semantics of an undefined filter value are not visible here.
- The client's timed navigation after submitting and the presentational text of the pages are not modelled.

## Findings

| source | as written | input that shows it | evidently intended | confidence | as-written member | corrected member |
|---|---|---|---|---|---|---|
| amalgamator-app-clean/amalgamator-app/backend/routes/contributions.js:128-162 | DELETE of a contribution never checks `isRemoved`, so deleting an already removed contribution withdraws its vote and a tenth of a point again | one live contribution whose author sends DELETE for it twice: both replies are "Contribution removed", and the total drops by 2 while only one contribution was live | counters always equal the number of live contributions; a second delete is refused | not executed | TallyAudit.DoubleDeleteBreaksTallies | TallyAudit.DeleteContributionOnce |
| backend/models/User.js:2, 65-75 | the name `bcrypt` is bound to `jsonwebtoken`, which has no `genSalt`, so the pre-save hook throws for every new password and no account is ever saved | the fields "a", "b", "c" and link "d" on an empty database: the account passes validation and no index clashes, yet the save is rejected | `bcrypt` names the bcrypt library, so a valid account with a new username and email is saved | not executed | Store.SaveNewUserAsWritten | Store.SaveNewUser |

=== FILE: amalgamations.dfy ===
/**
 * The amalgamation routes: creation behind the hourly rate limit, the
 * creator-only status update, and random selection.
 */
module AmalgamationRoutes {
  import opened Common
  import opened Text
  import opened Schema
  import opened Store
  import opened Points
  import opened Sorting

  const RateLimitMessage := "You can only create one amalgamation per " + "hour" + ". Please wait or use a contribution point."

  /** The rate-limit refusal mentions the hour (the message the client shows). */
  lemma RateLimitMessageMentionsHour()
    ensures OccursAt("hour", RateLimitMessage, 41)
  {
    var head := "You can only create one amalgamation per ";
    assert |head| == 41;
    assert RateLimitMessage[41..45] == (head + "hour")[41..45] == "hour";
  }

  /** The body of a creation request; an absent `mode` is the empty string. */
  datatype CreateRequest = CreateRequest(term1: Term, term2: Term, mode: string)

  /** `mode || 'play'`: a missing mode reads as play, any given mode is kept. */
  function ModeOrDefault(mode: string): (r: string)
    ensures r != []
    ensures ParseMode(r) == (if mode == [] then Some(Play) else ParseMode(mode))
  {
    if mode == [] then "play" else mode
  }

  /**
   * POST of a new amalgamation by `actor` at `now`. The rate-limit gate runs
   * first and its write to the user is committed before the new record is
   * validated, so a record that fails validation still costs the hour (and the
   * point).
   */
  function CreateAmalgamation(st: Store, actor: Id, req: CreateRequest, now: int, newId: Id): (r: Reply<Amalgamation>)
    requires newId !in st.amalgamations
    // a missing user record makes the handler throw before anything is written
    ensures actor !in st.users ==> r == Reply(ServerError, st)
    // refused exactly when under an hour has passed and less than one point is held
    ensures r.response.BadRequest? <==>
      actor in st.users && WithinHour(st.users[actor], now) && st.users[actor].contributionPoints < OnePoint
    ensures r.response.BadRequest? ==> r.store == st && r.response.msg == RateLimitMessage
    // otherwise the user is stamped with `now`, paying a point only when inside the hour
    ensures actor in st.users && !r.response.BadRequest? ==>
      && actor in r.store.users
      && r.store.users == st.users[actor := r.store.users[actor]]
      && r.store.users[actor].lastAmalgamationTime == now
      && r.store.users[actor]
           == st.users[actor].(lastAmalgamationTime := now, contributionPoints := r.store.users[actor].contributionPoints)
      && r.store.users[actor].contributionPoints
           == st.users[actor].contributionPoints - (if WithinHour(st.users[actor], now) then OnePoint else 0)
    // the new record: requested terms, mode or `play`, open, creator as sole contributor
    ensures r.response.Ok? <==>
      actor in st.users && !r.response.BadRequest? && ParseMode(ModeOrDefault(req.mode)).Some?
      && req.term1.text != [] && req.term2.text != []
    ensures r.response.Ok? ==>
      var a := r.response.body;
      && r.store.amalgamations == st.amalgamations[newId := a]
      && a.term1 == req.term1 && a.term2 == req.term2
      && ModeName(a.mode) == ModeOrDefault(req.mode)
      && a.createdBy == actor && a.contributors == [actor] && a.contributions == []
      && a.status == Open && a.totalVotes == 0 && (forall e :: Counter(a, e) == 0) && !a.highVolume
    ensures !r.response.Ok? ==> r.store.amalgamations == st.amalgamations
    ensures r.store.contributions == st.contributions && r.store.badges == st.badges && r.store.data == st.data
  {
    if actor !in st.users then Reply(ServerError, st)
    else
      match ChargeForCreation(st.users[actor], now)
      case None => Reply(BadRequest(RateLimitMessage), st)
      case Some(u) =>
        var charged := st.(users := st.users[actor := u]);
        match ParseMode(ModeOrDefault(req.mode))
        case None => Reply(ServerError, charged)
        case Some(mode) =>
          var a := NewAmalgamation(req.term1, req.term2, mode, actor, now);
          if !ValidAmalgamation(a) then Reply(ServerError, charged)
          else Reply(Ok(a), charged.(amalgamations := charged.amalgamations[newId := a]))
  }

  /** A user who created less than an hour ago and holds no point is refused, and nothing changes. */
  lemma CreateRefusedWithinHourWithoutPoints(st: Store, actor: Id, req: CreateRequest, now: int, newId: Id)
    requires newId !in st.amalgamations
    requires actor in st.users && now - st.users[actor].lastAmalgamationTime < OneHour
    requires st.users[actor].contributionPoints < OnePoint
    ensures CreateAmalgamation(st, actor, req, now, newId) == Reply(BadRequest(RateLimitMessage), st)
  {
  }

  /** With a point in hand, a well-formed request within the hour succeeds and costs exactly one point. */
  lemma CreateWithPointWithinHour(st: Store, actor: Id, req: CreateRequest, now: int, newId: Id)
    requires newId !in st.amalgamations
    requires actor in st.users && now - st.users[actor].lastAmalgamationTime < OneHour
    requires st.users[actor].contributionPoints >= OnePoint
    requires req.term1.text != [] && req.term2.text != [] && ParseMode(ModeOrDefault(req.mode)).Some?
    ensures var r := CreateAmalgamation(st, actor, req, now, newId);
      r.response.Ok? && r.store.users[actor].contributionPoints == st.users[actor].contributionPoints - OnePoint
  {
  }

  /** Once a full hour has passed (exactly one hour included), creation is free. */
  lemma CreateFreeAfterHour(st: Store, actor: Id, req: CreateRequest, now: int, newId: Id)
    requires newId !in st.amalgamations
    requires actor in st.users && now - st.users[actor].lastAmalgamationTime >= OneHour
    requires req.term1.text != [] && req.term2.text != [] && ParseMode(ModeOrDefault(req.mode)).Some?
    ensures var r := CreateAmalgamation(st, actor, req, now, newId);
      r.response.Ok? && r.store.users[actor].contributionPoints == st.users[actor].contributionPoints
  {
  }

  /**
   * Two creations in a row by a user without points: if the second comes less
   * than an hour after the first, it is refused.
   */
  lemma SecondCreationWithinHourRefused(st: Store, actor: Id, req1: CreateRequest, req2: CreateRequest,
                                        t1: int, t2: int, id1: Id, id2: Id)
    requires id1 !in st.amalgamations && id2 !in st.amalgamations && id1 != id2
    requires actor in st.users && st.users[actor].contributionPoints < OnePoint
    requires t1 <= t2 < t1 + OneHour
    ensures var r1 := CreateAmalgamation(st, actor, req1, t1, id1);
      !r1.response.BadRequest? ==>
        CreateAmalgamation(r1.store, actor, req2, t2, id2).response.BadRequest?
  {
    var r1 := CreateAmalgamation(st, actor, req1, t1, id1);
    if !r1.response.BadRequest? {
      assert id2 !in r1.store.amalgamations;
      assert r1.store.users[actor].lastAmalgamationTime == t1;
    }
  }

  /**
   * PUT of a status by `actor`: 404 for an unknown id, 401 for anyone but the
   * creator; an empty status changes nothing; a status outside the enumeration
   * fails validation on save; otherwise only the status changes.
   */
  function UpdateStatus(st: Store, actor: Id, id: Id, status: string): (r: Reply<Amalgamation>)
    ensures id !in st.amalgamations ==> r == Reply(NotFound, st)
    ensures id in st.amalgamations && st.amalgamations[id].createdBy != actor ==> r == Reply(Unauthorized, st)
    ensures r.response.ServerError? <==>
      id in st.amalgamations && st.amalgamations[id].createdBy == actor && status != [] && ParseStatus(status).None?
    ensures !r.response.Ok? ==> r.store == st
    ensures (id in st.amalgamations && st.amalgamations[id].createdBy == actor
             && (status == [] || ParseStatus(status).Some?)) ==> r.response.Ok?
    ensures r.response.Ok? ==>
      && id in st.amalgamations && st.amalgamations[id].createdBy == actor
      && r.store == st.(amalgamations := st.amalgamations[id := r.response.body])
      && r.response.body == st.amalgamations[id].(status := r.response.body.status)
      && (status == [] ==> r.response.body == st.amalgamations[id])
      && (status != [] ==> StatusName(r.response.body.status) == status)
  {
    if id !in st.amalgamations then Reply(NotFound, st)
    else
      var a := st.amalgamations[id];
      if a.createdBy != actor then Reply(Unauthorized, st)
      else if status == [] then Reply(Ok(a), st)
      else
        match ParseStatus(status)
        case None => Reply(ServerError, st)
        case Some(s) =>
          var a' := a.(status := s);
          Reply(Ok(a'), st.(amalgamations := st.amalgamations[id := a']))
  }

  /** `Math.floor(draw * count)` for a draw in [0, 1). */
  function RandomIndex(count: nat, draw: real): (i: nat)
    requires 0.0 <= draw < 1.0
    ensures count > 0 ==> i < count
    ensures count == 0 ==> i == 0
  {
    assert 0.0 <= draw * count as real;
    assert count > 0 ==> draw * count as real < count as real;
    (draw * count as real).Floor
  }

  /** Every index can be drawn: the draw `i / count` selects index `i`. */
  lemma RandomIndexReachesAll(count: nat, i: nat)
    requires i < count
    ensures RandomIndex(count, i as real / count as real) == i
  {
    assert (i as real / count as real) * count as real == i as real;
  }

  /**
   * The random pick: count the records, draw an index below the count, and
   * skip that many records in collection order. An empty collection gives
   * `None` (the JSON `null`), never an out-of-range read.
   */
  function RandomAmalgamation(st: Store, draw: real): (r: Option<(Id, Amalgamation)>)
    requires 0.0 <= draw < 1.0
    ensures r.None? <==> |st.amalgamations| == 0
    ensures r.Some? ==> r.value.0 in st.amalgamations && st.amalgamations[r.value.0] == r.value.1
    ensures r.Some? ==> r.value == Entries(st.amalgamations)[RandomIndex(|st.amalgamations|, draw)]
  {
    var entries := Entries(st.amalgamations);
    var i := RandomIndex(|entries|, draw);
    if i < |entries| then
      assert entries[i] in entries;
      Some(entries[i])
    else None
  }

  /** Every stored amalgamation can be picked: the draw `i / count` picks the `i`-th in collection order. */
  lemma RandomPicksEvery(st: Store, i: nat)
    requires i < |st.amalgamations|
    ensures var n := |st.amalgamations| as real;
      0.0 <= i as real / n < 1.0
      && RandomAmalgamation(st, i as real / n) == Some(Entries(st.amalgamations)[i])
  {
    var n := |st.amalgamations|;
    assert 0.0 <= i as real / n as real < 1.0 by {
      assert (i as real / n as real) * n as real == i as real;
    }
    RandomIndexReachesAll(n, i);
  }
}

=== FILE: badges.dfy ===
/**
 * The badge routes: the catalogue listing, a user's badges, creating a badge
 * under a unique name, and awarding a badge at most once per user.
 */
module BadgeRoutes {
  import opened Common
  import opened Text
  import opened Schema
  import opened Store
  import opened Sorting

  const BadgeExistsMessage := "Badge already exists"
  const AlreadyHeldMessage := "User already has this badge"
  const AwardedMessage := "Badge awarded successfully"

  /** The listing order: by category name, then by badge name. */
  predicate CatalogueOrder(p: (Id, Badge), q: (Id, Badge)) {
    LexPairLe((CategoryName(p.1.category), p.1.name), (CategoryName(q.1.category), q.1.name))
  }

  lemma CatalogueOrderIsTotalPreorder()
    ensures TotalPreorder(CatalogueOrder)
  {
    LexPairLeIsTotalPreorder();
    forall p: (Id, Badge), q: (Id, Badge) ensures CatalogueOrder(p, q) || CatalogueOrder(q, p) {
      LexPairLeTotal((CategoryName(p.1.category), p.1.name), (CategoryName(q.1.category), q.1.name));
    }
    forall p: (Id, Badge), q: (Id, Badge), o: (Id, Badge) | CatalogueOrder(p, q) && CatalogueOrder(q, o)
      ensures CatalogueOrder(p, o)
    {
      LexPairLeTransitive((CategoryName(p.1.category), p.1.name), (CategoryName(q.1.category), q.1.name),
                          (CategoryName(o.1.category), o.1.name));
    }
  }

  /** GET of all badges: every stored badge exactly once, by category and then name. */
  function ListBadges(st: Store): (r: seq<(Id, Badge)>)
    ensures |r| == |st.badges|
    ensures forall p :: p in r <==> p.0 in st.badges && st.badges[p.0] == p.1
    ensures SortedBy(r, CatalogueOrder)
  {
    var all := Entries(st.badges);
    CatalogueOrderIsTotalPreorder();
    var r := SortBy(all, CatalogueOrder);
    r
  }

  /**
   * Replaces each badge id by its document, in order; an id with no document
   * is dropped, as populating an array of references does.
   */
  function Populate(ids: seq<Id>, badges: map<Id, Badge>): (r: seq<(Id, Badge)>)
    ensures |r| <= |ids|
    ensures forall p :: p in r <==> p.0 in ids && p.0 in badges && badges[p.0] == p.1
    ensures (forall k | 0 <= k < |ids| :: ids[k] in badges) ==>
      |r| == |ids| && forall k | 0 <= k < |ids| :: r[k] == (ids[k], badges[ids[k]])
  {
    if ids == [] then []
    else
      var rest := Populate(ids[1..], badges);
      assert forall x :: x in ids <==> x == ids[0] || x in ids[1..];
      if ids[0] in badges then [(ids[0], badges[ids[0]])] + rest else rest
  }

  /** GET of a user's badges: 404 for an unknown user, otherwise the documents of the held badges. */
  function UserBadges(st: Store, userId: Id): (r: Response<seq<(Id, Badge)>>)
    ensures r.NotFound? <==> userId !in st.users
    ensures r.Ok? <==> userId in st.users
    ensures r.Ok? ==> forall p :: p in r.body <==>
      p.0 in st.users[userId].badges && p.0 in st.badges && st.badges[p.0] == p.1
    // when every held id has a badge, the documents come in the order the user holds them
    ensures r.Ok? && (forall b | b in st.users[userId].badges :: b in st.badges) ==>
      var held := st.users[userId].badges;
      |r.body| == |held| && forall k | 0 <= k < |held| :: r.body[k] == (held[k], st.badges[held[k]])
  {
    if userId !in st.users then NotFound else Ok(Populate(st.users[userId].badges, st.badges))
  }

  /** Some stored badge already has this name. */
  predicate NameTaken(badges: map<Id, Badge>, name: string) {
    exists k | k in badges :: badges[k].name == name
  }

  /**
   * POST of a new badge: a name already in use is refused with 400 and nothing
   * saved; a missing required field or a category outside the enumeration
   * fails validation on save (500); otherwise the badge is stored.
   */
  function CreateBadge(st: Store, name: string, description: string, icon: string, criteria: string,
                       category: string, newId: Id): (r: Reply<Badge>)
    requires newId !in st.badges
    ensures r.response.BadRequest? <==> NameTaken(st.badges, name)
    ensures r.response.BadRequest? ==> r == Reply(BadRequest(BadgeExistsMessage), st)
    ensures r.response.Ok? <==>
      && !NameTaken(st.badges, name) && ParseCategory(category).Some?
      && name != [] && description != [] && icon != [] && criteria != []
    ensures r.response.Ok? ==>
      && r.store == st.(badges := st.badges[newId := r.response.body])
      && r.response.body.name == name && r.response.body.description == description
      && r.response.body.icon == icon && r.response.body.criteria == criteria
      && CategoryName(r.response.body.category) == category
    ensures !r.response.Ok? ==> r.store == st
    ensures r.response.Ok? || r.response.BadRequest? || r.response.ServerError?
    ensures UniqueBadgeNames(st.badges) ==> UniqueBadgeNames(r.store.badges)
  {
    if NameTaken(st.badges, name) then Reply(BadRequest(BadgeExistsMessage), st)
    else
      match ParseCategory(category)
      case None => Reply(ServerError, st)
      case Some(c) =>
        var b := Badge(name, description, icon, criteria, c);
        if !ValidBadge(b) then Reply(ServerError, st)
        else Reply(Ok(b), st.(badges := st.badges[newId := b]))
  }

  /** A name is accepted at most once: creating the same name twice refuses the second. */
  lemma CreateBadgeTwiceRefused(st: Store, name: string, description: string, icon: string, criteria: string,
                                category: string, id1: Id, id2: Id)
    requires id1 !in st.badges && id2 !in st.badges && id1 != id2
    ensures var r1 := CreateBadge(st, name, description, icon, criteria, category, id1);
      r1.response.Ok? ==>
        CreateBadge(r1.store, name, description, icon, criteria, category, id2)
          == Reply(BadRequest(BadgeExistsMessage), r1.store)
  {
    var r1 := CreateBadge(st, name, description, icon, criteria, category, id1);
    if r1.response.Ok? {
      assert r1.store.badges[id1].name == name;
    }
  }

  /**
   * POST awarding badge `badgeId` to user `userId`: 404 when the badge is
   * missing (checked first), 404 when the user is missing, 400 when the user
   * already holds it; otherwise the id is appended to the user's badges.
   */
  function AwardBadge(st: Store, badgeId: Id, userId: Id): (r: Reply<string>)
    ensures badgeId !in st.badges ==> r == Reply(NotFound, st)
    ensures badgeId in st.badges && userId !in st.users ==> r == Reply(NotFound, st)
    ensures r.response.BadRequest? <==>
      badgeId in st.badges && userId in st.users && badgeId in st.users[userId].badges
    ensures r.response.BadRequest? ==> r == Reply(BadRequest(AlreadyHeldMessage), st)
    ensures r.response.Ok? <==>
      badgeId in st.badges && userId in st.users && badgeId !in st.users[userId].badges
    ensures r.response.Ok? ==>
      && r.response.body == AwardedMessage
      && userId in r.store.users
      && r.store == st.(users := st.users[userId := st.users[userId].(badges := st.users[userId].badges + [badgeId])])
    ensures !r.response.Ok? ==> r.store == st
    // a badge already held is never added again
    ensures userId in st.users && NoDup(st.users[userId].badges) ==>
      userId in r.store.users && NoDup(r.store.users[userId].badges)
  {
    if badgeId !in st.badges then Reply(NotFound, st)
    else if userId !in st.users then Reply(NotFound, st)
    else
      var u := st.users[userId];
      if badgeId in u.badges then Reply(BadRequest(AlreadyHeldMessage), st)
      else
        var u' := u.(badges := u.badges + [badgeId]);
        assert NoDup(u.badges) ==> NoDup(u'.badges) by {
          if NoDup(u.badges) {
            forall i, j | 0 <= i < j < |u'.badges| ensures u'.badges[i] != u'.badges[j] {
              if j == |u.badges| {
                assert u'.badges[i] == u.badges[i];
              }
            }
          }
        }
        Reply(Ok(AwardedMessage), st.(users := st.users[userId := u']))
  }

  /**
   * Awarding the same badge twice: the second award is refused, and the user
   * ends up holding the badge exactly once.
   */
  lemma AwardTwiceHoldsOnce(st: Store, badgeId: Id, userId: Id)
    requires badgeId in st.badges && userId in st.users
    requires NoDup(st.users[userId].badges)
    ensures var r1 := AwardBadge(st, badgeId, userId);
      var r2 := AwardBadge(r1.store, badgeId, userId);
      && r2.response == BadRequest(AlreadyHeldMessage)
      && userId in r2.store.users
      && Count(r2.store.users[userId].badges, badgeId) == 1
  {
    var r1 := AwardBadge(st, badgeId, userId);
    var r2 := AwardBadge(r1.store, badgeId, userId);
    assert badgeId in r1.store.users[userId].badges by {
      if r1.response.Ok? {
        var bs := st.users[userId].badges + [badgeId];
        assert bs[|bs| - 1] == badgeId;
      }
    }
    CountNoDup(r2.store.users[userId].badges, badgeId);
  }
}

=== FILE: common.dfy ===
/**
 * Identifiers, optional values and the array helpers the route handlers use
 * on the id lists stored inside records (`contributors`, `likedBy`, `badges`).
 */
module Common {

  /** A database identifier (an ObjectId in the application); only equality matters. */
  type Id = nat

  /** An absent-or-present value; `None` stands for JavaScript's `null`/`undefined`. */
  datatype Option<+T> = None | Some(value: T)

  /** No element occurs twice. */
  predicate NoDup<T(==)>(s: seq<T>) {
    forall i, j | 0 <= i < j < |s| :: s[i] != s[j]
  }

  /** Number of occurrences of `x` in `s`. */
  function Count<T(==)>(s: seq<T>, x: T): (n: nat)
    ensures n <= |s|
    ensures n == 0 <==> x !in s
  {
    if s == [] then 0 else (if s[0] == x then 1 else 0) + Count(s[1..], x)
  }

  /**
   * Appends `x` unless it is already present: the `if (!list.includes(x)) list.push(x)`
   * idiom of the route handlers.
   */
  function AddIfAbsent<T(==,!new)>(s: seq<T>, x: T): (r: seq<T>)
    ensures x in r
    ensures forall y :: y in r <==> y in s || y == x
    ensures x in s ==> r == s
    ensures x !in s ==> |r| == |s| + 1 && r[..|s|] == s
    ensures NoDup(s) ==> NoDup(r)
  {
    if x in s then s else s + [x]
  }

  /** `list.filter(y => y !== x)`: every occurrence of `x` removed, order kept. */
  function RemoveAll<T(==,!new)>(s: seq<T>, x: T): (r: seq<T>)
    ensures x !in r
    ensures forall y :: y in r <==> y in s && y != x
    ensures |r| == |s| - Count(s, x)
    ensures NoDup(s) ==> NoDup(r)
  {
    if s == [] then []
    else
      var rest := RemoveAll(s[1..], x);
      assert forall y :: y in s <==> y == s[0] || y in s[1..];
      NoDupUncons(s);
      if s[0] == x then rest else NoDupUncons([s[0]] + rest); [s[0]] + rest
  }

  /**
   * Filtering works element by element and keeps the order: filtering a
   * concatenation concatenates the filtered parts.
   */
  lemma {:induction false} RemoveAllConcat<T(!new)>(a: seq<T>, b: seq<T>, x: T)
    ensures RemoveAll(a + b, x) == RemoveAll(a, x) + RemoveAll(b, x)
  {
    if a != [] {
      var ab := a + b;
      assert ab[0] == a[0] && ab[1..] == a[1..] + b;
      RemoveAllConcat(a[1..], b, x);
      var p, q := RemoveAll(a[1..], x), RemoveAll(b, x);
      if a[0] == x {
        assert RemoveAll(ab, x) == p + q;
      } else {
        assert RemoveAll(ab, x) == [a[0]] + (p + q);
        assert RemoveAll(a, x) == [a[0]] + p;
      }
    } else {
      assert a + b == b;
    }
  }

  /** On a single element the filter keeps it exactly when it differs from `x`. */
  lemma RemoveAllSingle<T(!new)>(y: T, x: T)
    ensures RemoveAll([y], x) == (if y == x then [] else [y])
  {
    assert [y][1..] == [];
  }

  /** A non-empty list is duplicate-free exactly when its head is not in its duplicate-free tail. */
  lemma NoDupUncons<T>(s: seq<T>)
    requires s != []
    ensures NoDup(s) <==> s[0] !in s[1..] && NoDup(s[1..])
  {
    if NoDup(s) {
      forall k | 0 <= k < |s[1..]| ensures s[1..][k] != s[0] {
        assert s[1..][k] == s[k + 1];
      }
    }
  }

  /** In a list without duplicates, a present element occurs exactly once. */
  lemma {:induction false} CountNoDup<T>(s: seq<T>, x: T)
    requires NoDup(s)
    ensures Count(s, x) == (if x in s then 1 else 0)
  {
    if s != [] {
      assert NoDup(s[1..]) by {
        forall i, j | 0 <= i < j < |s[1..]| ensures s[1..][i] != s[1..][j] {
          assert s[1..][i] == s[i + 1] && s[1..][j] == s[j + 1];
        }
      }
      CountNoDup(s[1..], x);
      if s[0] == x {
        assert x !in s[1..] by {
          forall k | 0 <= k < |s[1..]| ensures s[1..][k] != x {
            assert s[1..][k] == s[k + 1];
          }
        }
      } else {
        assert x in s <==> x in s[1..];
      }
    }
  }

  /** A non-empty list has its first element as a member. */
  lemma HeadIsMember<T>(s: seq<T>)
    ensures s != [] ==> s[0] in s
  {
  }
}

=== FILE: contributions.dfy ===
/**
 * The contribution routes: creation (with the vote tally, the contributor
 * list and the point award), the listing of an amalgamation's live
 * contributions, author-only editing with history, author-only soft deletion
 * (with the tally and point penalty), and the like toggle.
 */
module ContributionRoutes {
  import opened Common
  import opened Schema
  import opened Store
  import opened Points
  import opened Sorting

  const RemovedMessage := "Contribution removed"

  // ---------------------------------------------------------------- tally bookkeeping

  /** The two records differ at most in their four vote counters. */
  predicate SameExceptTally(a: Amalgamation, b: Amalgamation) {
    a.(totalVotes := 0, plausibleVotes := 0, notPlausibleVotes := 0, irrelevantVotes := 0)
      == b.(totalVotes := 0, plausibleVotes := 0, notPlausibleVotes := 0, irrelevantVotes := 0)
  }

  /** Adds one to the total and to the counter of `e`. */
  function CastVote(a: Amalgamation, e: Evaluation): (r: Amalgamation)
    ensures SameExceptTally(a, r)
    ensures r.totalVotes == a.totalVotes + 1
    ensures Counter(r, e) == Counter(a, e) + 1
    ensures forall e' | e' != e :: Counter(r, e') == Counter(a, e')
    ensures TallyConsistent(r) <==> TallyConsistent(a)
  {
    var t := a.(totalVotes := a.totalVotes + 1);
    match e
    case Plausible => t.(plausibleVotes := a.plausibleVotes + 1)
    case NotPlausible => t.(notPlausibleVotes := a.notPlausibleVotes + 1)
    case Irrelevant => t.(irrelevantVotes := a.irrelevantVotes + 1)
  }

  /** Subtracts one from the total and from the counter of `e`; nothing stops a counter going negative. */
  function WithdrawVote(a: Amalgamation, e: Evaluation): (r: Amalgamation)
    ensures SameExceptTally(a, r)
    ensures r.totalVotes == a.totalVotes - 1
    ensures Counter(r, e) == Counter(a, e) - 1
    ensures forall e' | e' != e :: Counter(r, e') == Counter(a, e')
    ensures TallyConsistent(r) <==> TallyConsistent(a)
  {
    var t := a.(totalVotes := a.totalVotes - 1);
    match e
    case Plausible => t.(plausibleVotes := a.plausibleVotes - 1)
    case NotPlausible => t.(notPlausibleVotes := a.notPlausibleVotes - 1)
    case Irrelevant => t.(irrelevantVotes := a.irrelevantVotes - 1)
  }

  /** Withdrawing a vote undoes casting it. */
  lemma WithdrawUndoesCast(a: Amalgamation, e: Evaluation)
    ensures WithdrawVote(CastVote(a, e), e) == a
  {
  }

  /** How many contribution records `user` has written, removed ones included. */
  function RecordCount(cs: map<Id, Contribution>, user: Id): nat {
    |RecordsBy(cs, user)|
  }

  function RecordsBy(cs: map<Id, Contribution>, user: Id): set<Id> {
    set k | k in cs && cs[k].userId == user
  }

  /** Saving one more record by `c.userId` raises that user's record count by one and leaves others' alone. */
  lemma RecordCountAfterInsert(cs: map<Id, Contribution>, id: Id, c: Contribution, user: Id)
    requires id !in cs
    ensures RecordCount(cs[id := c], user) == RecordCount(cs, user) + (if user == c.userId then 1 else 0)
  {
    if user == c.userId {
      assert RecordsBy(cs[id := c], user) == RecordsBy(cs, user) + {id};
    } else {
      assert RecordsBy(cs[id := c], user) == RecordsBy(cs, user);
    }
  }

  // ---------------------------------------------------------------- create

  /** The amalgamation after contribution `id` by `actor` with evaluation `e` is saved. */
  function JoinAmalgamation(a: Amalgamation, id: Id, actor: Id, e: Evaluation): (r: Amalgamation)
    ensures r.contributions == a.contributions + [id]
    ensures r.contributors == AddIfAbsent(a.contributors, actor)
    ensures SameExceptTally(a.(contributions := r.contributions, contributors := r.contributors), r)
    ensures r.totalVotes == a.totalVotes + 1
    ensures Counter(r, e) == Counter(a, e) + 1
    ensures forall e' | e' != e :: Counter(r, e') == Counter(a, e')
    ensures AmalgamationOk(a) ==> AmalgamationOk(r)
  {
    CastVote(a.(contributions := a.contributions + [id], contributors := AddIfAbsent(a.contributors, actor)), e)
  }

  /**
   * POST of a contribution by `actor` at `now`. A missing amalgamation is 404
   * with no write; a text or evaluation that fails validation is a 500 with
   * no write. Otherwise the record is saved, the amalgamation gains its id, the
   * author as a contributor (once) and the vote, and the author gets a point
   * when their record count, removed records included, reaches a multiple of ten.
   */
  function CreateContribution(st: Store, actor: Id, amalgamationId: Id, text: string, evaluation: string,
                              now: int, newId: Id): (r: Reply<Contribution>)
    requires newId !in st.contributions
    ensures amalgamationId !in st.amalgamations ==> r == Reply(NotFound, st)
    ensures amalgamationId in st.amalgamations && (ParseEvaluation(evaluation).None? || !ValidText(text)) ==>
      r == Reply(ServerError, st)
    ensures amalgamationId in st.amalgamations && ParseEvaluation(evaluation).Some? && ValidText(text) ==>
      var e := ParseEvaluation(evaluation).value;
      var c := NewContribution(amalgamationId, actor, text, e, now);
      var a := st.amalgamations[amalgamationId];
      var records := RecordCount(st.contributions, actor) + 1;
      && r.store.contributions == st.contributions[newId := c]
      && amalgamationId in r.store.amalgamations
      && var a' := r.store.amalgamations[amalgamationId];
      && r.store.amalgamations == st.amalgamations[amalgamationId := a']
      && a'.contributions == a.contributions + [newId]
      && a'.contributors == AddIfAbsent(a.contributors, actor)
      && SameExceptTally(a.(contributions := a'.contributions, contributors := a'.contributors), a')
      && a'.totalVotes == a.totalVotes + 1
      && Counter(a', e) == Counter(a, e) + 1
      && (forall e' | e' != e :: Counter(a', e') == Counter(a, e'))
      && (actor in st.users ==>
            && r.response == Ok(c)
            && actor in r.store.users
            && r.store.users == st.users[actor := r.store.users[actor]]
            && r.store.users[actor] == st.users[actor].(contributionPoints := r.store.users[actor].contributionPoints)
            && r.store.users[actor].contributionPoints
                 == st.users[actor].contributionPoints + (if records % RecordsPerPoint == 0 then OnePoint else 0))
      && (actor !in st.users ==>
            r.store.users == st.users && (r.response == Ok(c) <==> records % RecordsPerPoint != 0))
    ensures r.store.badges == st.badges && r.store.data == st.data
  {
    if amalgamationId !in st.amalgamations then Reply(NotFound, st)
    else
      match ParseEvaluation(evaluation)
      case None => Reply(ServerError, st)
      case Some(e) =>
        var c := NewContribution(amalgamationId, actor, text, e, now);
        if !ValidContribution(c) then Reply(ServerError, st)
        else SaveContribution(st, newId, c, e)
  }

  /** The writes of an accepted contribution `c` voting `e`: record, amalgamation, then the author's points. */
  function SaveContribution(st: Store, newId: Id, c: Contribution, e: Evaluation): (r: Reply<Contribution>)
    requires newId !in st.contributions && c.amalgamationId in st.amalgamations
    ensures
      var actor := c.userId;
      var a := st.amalgamations[c.amalgamationId];
      var records := RecordCount(st.contributions, actor) + 1;
      && r.store.contributions == st.contributions[newId := c]
      && c.amalgamationId in r.store.amalgamations
      && var a' := r.store.amalgamations[c.amalgamationId];
      && r.store.amalgamations == st.amalgamations[c.amalgamationId := a']
      && a' == JoinAmalgamation(a, newId, actor, e)
      && (actor in st.users ==>
            && r.response == Ok(c)
            && actor in r.store.users
            && r.store.users == st.users[actor := r.store.users[actor]]
            && r.store.users[actor] == st.users[actor].(contributionPoints := r.store.users[actor].contributionPoints)
            && r.store.users[actor].contributionPoints
                 == st.users[actor].contributionPoints + (if records % RecordsPerPoint == 0 then OnePoint else 0))
      && (actor !in st.users ==>
            r.store.users == st.users && (r.response == Ok(c) <==> records % RecordsPerPoint != 0))
    ensures r.store.badges == st.badges && r.store.data == st.data
  {
    var actor := c.userId;
    var cs := st.contributions[newId := c];
    var a' := JoinAmalgamation(st.amalgamations[c.amalgamationId], newId, actor, e);
    var saved := st.(contributions := cs, amalgamations := st.amalgamations[c.amalgamationId := a']);
    var records := RecordCount(cs, actor);
    RecordCountAfterInsert(st.contributions, newId, c, actor);
    if records % RecordsPerPoint != 0 then Reply(Ok(c), saved)
    else if actor !in st.users then Reply(ServerError, saved)
    else Reply(Ok(c), saved.(users := st.users[actor := AccrueForContribution(st.users[actor], records)]))
  }

  // ---------------------------------------------------------------- list

  /** Newest first by creation time. */
  predicate NewerFirst(p: (Id, Contribution), q: (Id, Contribution)) {
    p.1.createdAt >= q.1.createdAt
  }

  lemma NewerFirstIsTotalPreorder()
    ensures TotalPreorder(NewerFirst)
  {
  }

  /** The amalgamation's contributions that have not been removed. */
  predicate Live(amalgamationId: Id, c: Contribution) {
    c.amalgamationId == amalgamationId && !c.isRemoved
  }

  /** GET of an amalgamation's contributions: exactly its live ones, newest first. */
  function ListContributions(st: Store, amalgamationId: Id): (r: seq<(Id, Contribution)>)
    ensures forall p :: p in r <==> p.0 in st.contributions && st.contributions[p.0] == p.1 && Live(amalgamationId, p.1)
    ensures SortedBy(r, NewerFirst)
    ensures NoDup(r)
  {
    var live := FilterEntries(Entries(st.contributions), c => Live(amalgamationId, c));
    NewerFirstIsTotalPreorder();
    var r := SortBy(live, NewerFirst);
    SortByKeepsNoDup(live, NewerFirst);
    r
  }

  // ---------------------------------------------------------------- edit

  /**
   * PUT of new text by `actor` at `now`: 404 for an unknown id, 401 for anyone
   * but the author. Otherwise the old text is pushed onto the history, the new
   * text stored and the record marked edited; a text that fails validation
   * makes the save fail with nothing written.
   */
  function EditContribution(st: Store, actor: Id, id: Id, text: string, now: int): (r: Reply<Contribution>)
    ensures id !in st.contributions ==> r == Reply(NotFound, st)
    ensures id in st.contributions && st.contributions[id].userId != actor ==> r == Reply(Unauthorized, st)
    ensures id in st.contributions && st.contributions[id].userId == actor && !ValidText(text) ==>
      r == Reply(ServerError, st)
    ensures id in st.contributions && st.contributions[id].userId == actor && ValidText(text) ==> r.response.Ok?
    ensures r.response.Ok? ==>
      var c := st.contributions[id];
      var c' := r.response.body;
      && id in st.contributions && c.userId == actor && ValidText(text)
      && r.store == st.(contributions := st.contributions[id := c'])
      && c'.text == text && c'.isEdited
      && |c'.editHistory| == |c.editHistory| + 1
      && c'.editHistory[..|c.editHistory|] == c.editHistory
      && c'.editHistory[|c.editHistory|] == EditEntry(now, c.text)
      && c' == c.(text := text, isEdited := true, editHistory := c'.editHistory)
    ensures r.response.Ok? || r.store == st
  {
    if id !in st.contributions then Reply(NotFound, st)
    else
      var c := st.contributions[id];
      if c.userId != actor then Reply(Unauthorized, st)
      else
        var c' := c.(editHistory := c.editHistory + [EditEntry(now, c.text)], text := text, isEdited := true);
        if !ValidContribution(c') then Reply(ServerError, st)
        else Reply(Ok(c'), st.(contributions := st.contributions[id := c']))
  }

  // ---------------------------------------------------------------- delete

  /**
   * DELETE by `actor`: 404 for an unknown id, 401 for anyone but the author.
   * Otherwise the record is marked removed, the vote is withdrawn from its
   * amalgamation and the author loses a tenth of a point (not below zero).
   * Nothing checks whether the record was already removed, so a repeated
   * DELETE withdraws the vote and the tenth again. A missing amalgamation or
   * user makes the handler throw after the earlier writes.
   */
  function DeleteContribution(st: Store, actor: Id, id: Id): (r: Reply<string>)
    ensures id !in st.contributions ==> r == Reply(NotFound, st)
    ensures id in st.contributions && st.contributions[id].userId != actor ==> r == Reply(Unauthorized, st)
    ensures id in st.contributions && st.contributions[id].userId == actor ==>
      var c := st.contributions[id];
      && r.store.contributions == st.contributions[id := c.(isRemoved := true)]
      && (c.amalgamationId !in st.amalgamations ==>
            r.response == ServerError && r.store.amalgamations == st.amalgamations && r.store.users == st.users)
      && (c.amalgamationId in st.amalgamations ==>
            var a := st.amalgamations[c.amalgamationId];
            && c.amalgamationId in r.store.amalgamations
            && var a' := r.store.amalgamations[c.amalgamationId];
            && r.store.amalgamations == st.amalgamations[c.amalgamationId := a']
            && SameExceptTally(a, a')
            && a'.totalVotes == a.totalVotes - 1
            && Counter(a', c.evaluation) == Counter(a, c.evaluation) - 1
            && (forall e | e != c.evaluation :: Counter(a', e) == Counter(a, e))
            && (actor !in st.users ==> r.response == ServerError && r.store.users == st.users)
            && (actor in st.users ==>
                  var p := st.users[actor].contributionPoints;
                  && r.response == Ok(RemovedMessage)
                  && actor in r.store.users
                  && r.store.users == st.users[actor := r.store.users[actor]]
                  && r.store.users[actor] == st.users[actor].(contributionPoints := r.store.users[actor].contributionPoints)
                  && r.store.users[actor].contributionPoints == (if p > 0 then p - 1 else 0)))
    ensures r.store.badges == st.badges && r.store.data == st.data
  {
    if id !in st.contributions then Reply(NotFound, st)
    else
      var c := st.contributions[id];
      if c.userId != actor then Reply(Unauthorized, st)
      else
        var removed := st.(contributions := st.contributions[id := c.(isRemoved := true)]);
        if c.amalgamationId !in st.amalgamations then Reply(ServerError, removed)
        else
          var a' := WithdrawVote(st.amalgamations[c.amalgamationId], c.evaluation);
          var tallied := removed.(amalgamations := st.amalgamations[c.amalgamationId := a']);
          if actor !in st.users then Reply(ServerError, tallied)
          else Reply(Ok(RemovedMessage), tallied.(users := st.users[actor := DeductForRemoval(st.users[actor])]))
  }

  // ---------------------------------------------------------------- like

  /** Flips `actor`'s like: an unlike drops every occurrence of them and one from the counter. */
  function Toggle(c: Contribution, actor: Id): (c': Contribution)
    ensures actor in c.likedBy ==> actor !in c'.likedBy && c'.likes == c.likes - 1
    ensures actor in c.likedBy ==> c'.likedBy == RemoveAll(c.likedBy, actor)
    ensures actor !in c.likedBy ==> c'.likedBy == c.likedBy + [actor] && c'.likes == c.likes + 1
    ensures forall u | u != actor :: u in c'.likedBy <==> u in c.likedBy
    ensures c' == c.(likes := c'.likes, likedBy := c'.likedBy)
    ensures LikesConsistent(c) ==> LikesConsistent(c')
  {
    if actor in c.likedBy then
      if NoDup(c.likedBy) then CountNoDup(c.likedBy, actor); c.(likes := c.likes - 1, likedBy := RemoveAll(c.likedBy, actor))
      else c.(likes := c.likes - 1, likedBy := RemoveAll(c.likedBy, actor))
    else
      c.(likes := c.likes + 1, likedBy := AddIfAbsent(c.likedBy, actor))
  }

  /** POST of a like by `actor`: 404 for an unknown id; otherwise the like is toggled. */
  function ToggleLike(st: Store, actor: Id, id: Id): (r: Reply<Contribution>)
    ensures id !in st.contributions ==> r == Reply(NotFound, st)
    ensures id in st.contributions ==>
      && r.response == Ok(Toggle(st.contributions[id], actor))
      && r.store == st.(contributions := st.contributions[id := Toggle(st.contributions[id], actor)])
  {
    if id !in st.contributions then Reply(NotFound, st)
    else
      var c' := Toggle(st.contributions[id], actor);
      Reply(Ok(c'), st.(contributions := st.contributions[id := c']))
  }

  /** Liking and then unliking restores the record exactly. */
  lemma LikeThenUnlikeRestores(c: Contribution, actor: Id)
    requires actor !in c.likedBy
    ensures Toggle(Toggle(c, actor), actor) == c
  {
    var s := c.likedBy;
    var once := Toggle(c, actor);
    assert once.likedBy == s + [actor];
    RemoveAllAppended(s, actor);
  }

  /**
   * Unliking and then liking restores the counter and who likes it; the liker
   * moves to the end of the list.
   */
  lemma UnlikeThenLikeRestoresLikers(c: Contribution, actor: Id)
    requires actor in c.likedBy && LikesConsistent(c)
    ensures var twice := Toggle(Toggle(c, actor), actor);
      && twice.likes == c.likes
      && (forall u :: u in twice.likedBy <==> u in c.likedBy)
      && LikesConsistent(twice)
  {
  }

  /** Removing `x` from a list that only gained `x` at the end gives the list back. */
  lemma {:induction false} RemoveAllAppended(s: seq<Id>, x: Id)
    requires x !in s
    ensures RemoveAll(s + [x], x) == s
  {
    if s == [] {
      assert RemoveAll([x], x) == RemoveAll([], x);
    } else {
      assert (s + [x])[1..] == s[1..] + [x];
      RemoveAllAppended(s[1..], x);
      assert s == [s[0]] + s[1..];
    }
  }
}

=== FILE: data.dfy ===
/**
 * The taxonomy routes: the two listings, and the one-shot import of Roget's
 * thesaurus from already parsed CSV rows.
 */
module DataRoutes {
  import opened Common
  import opened Text
  import opened Schema
  import opened Store
  import opened Sorting

  const AlreadyImportedMessage := "Roget data already imported"

  /** One parsed CSV row: column header to cell text; a header missing from the map is an absent column. */
  type CsvRow = map<string, string>

  /** `row[key] || ''`: the cell, or the empty string when the column is absent or the cell empty. */
  function Cell(row: CsvRow, key: string): (r: string)
    ensures r != [] <==> key in row && row[key] != []
    ensures r != [] ==> r == row[key]
  {
    if key in row then row[key] else ""
  }

  /** Trims every piece, keeping their number and order. */
  function TrimEach(pieces: seq<string>): (r: seq<string>)
    ensures |r| == |pieces|
    ensures forall i | 0 <= i < |r| :: r[i] == Trim(pieces[i])
  {
    if pieces == [] then [] else [Trim(pieces[0])] + TrimEach(pieces[1..])
  }

  /** The `terms` cell: split on commas and trim each piece; an empty cell gives no terms. */
  function Terms(cell: string): (r: seq<string>)
    ensures cell == [] <==> r == []
    ensures cell != [] ==> |r| == |Split(cell, ',')|
    ensures cell != [] ==> forall i | 0 <= i < |r| :: r[i] == Trim(Split(cell, ',')[i])
    ensures forall i | 0 <= i < |r| :: IsTrimmed(r[i]) && ',' !in r[i]
  {
    if cell == [] then []
    else
      var pieces := Split(cell, ',');
      var r := TrimEach(pieces);
      forall i | 0 <= i < |r| ensures ',' !in r[i] {
        TrimKeepsAbsent(pieces[i], ',');
      }
      r
  }

  /** The record an import row becomes: Roget, the four levels, and the trimmed terms. */
  function MapRow(row: CsvRow): (d: HierarchicalData)
    ensures d.source == Roget
    ensures d.level1 == Cell(row, "C1") && d.level2 == Cell(row, "C2")
    ensures d.level3 == Cell(row, "C3") && d.level4 == Cell(row, "C4")
    ensures d.terms == Terms(Cell(row, "terms"))
    ensures |d.terms| == (if Cell(row, "terms") == [] then 0 else |Split(row["terms"], ',')|)
    // a row without a first level is not a valid record
    ensures ValidData(d) <==> "C1" in row && row["C1"] != []
  {
    HierarchicalData(Roget, Cell(row, "C1"), Cell(row, "C2"), Cell(row, "C3"), Cell(row, "C4"),
                     Terms(Cell(row, "terms")))
  }

  /**
   * When no piece of the `terms` cell has surrounding whitespace, the stored
   * terms joined with commas give the cell back.
   */
  lemma TermsRoundTrip(cell: string)
    requires cell != []
    requires forall i | 0 <= i < |Split(cell, ',')| :: IsTrimmed(Split(cell, ',')[i])
    ensures Join(Terms(cell), ',') == cell
  {
    var pieces := Split(cell, ',');
    forall i | 0 <= i < |pieces| ensures Trim(pieces[i]) == pieces[i] {
      TrimmedIsFixed(pieces[i]);
    }
    assert TrimEach(pieces) == pieces;
    JoinSplit(cell, ',');
  }

  /** Writing stored terms back as a cell and importing it again gives the same terms. */
  lemma TermsFromJoin(terms: seq<string>)
    requires |terms| >= 1 && Join(terms, ',') != []
    requires forall i | 0 <= i < |terms| :: IsTrimmed(terms[i]) && ',' !in terms[i]
    ensures Terms(Join(terms, ',')) == terms
  {
    SplitJoin(terms, ',');
    forall i | 0 <= i < |terms| ensures Trim(terms[i]) == terms[i] {
      TrimmedIsFixed(terms[i]);
    }
  }

  function MapRows(rows: seq<CsvRow>): (r: seq<HierarchicalData>)
    ensures |r| == |rows|
    ensures forall i | 0 <= i < |r| :: r[i] == MapRow(rows[i])
  {
    if rows == [] then []
    else
      var rest := MapRows(rows[1..]);
      assert forall j | 0 <= j < |rows| - 1 :: rows[1..][j] == rows[j + 1];
      [MapRow(rows[0])] + rest
  }

  /** Stores `recs[i]` under `firstId + i`, above every id already in use. */
  function InsertFrom(m: map<Id, HierarchicalData>, recs: seq<HierarchicalData>, firstId: Id): (r: map<Id, HierarchicalData>)
    requires forall k | k in m :: k < firstId
    ensures forall k :: k in r <==> k in m || firstId <= k < firstId + |recs|
    ensures forall k | k in m :: r[k] == m[k]
    ensures forall i | 0 <= i < |recs| :: r[firstId + i] == recs[i]
    decreases |recs|
  {
    if recs == [] then m
    else
      var r := InsertFrom(m[firstId := recs[0]], recs[1..], firstId + 1);
      assert forall j | 0 <= j < |recs| - 1 :: recs[1..][j] == recs[j + 1];
      r
  }

  /** Every row has a first level. */
  predicate AllHaveFirstLevel(rows: seq<CsvRow>) {
    forall i | 0 <= i < |rows| :: Cell(rows[i], "C1") != []
  }

  /** A record from Roget's thesaurus is already stored. */
  predicate RogetImported(data: map<Id, HierarchicalData>) {
    exists k | k in data :: data[k].source == Roget
  }

  /**
   * POST importing Roget's thesaurus from `rows`. A prior import is refused
   * with 400 and nothing inserted. Otherwise every row is mapped; if any
   * mapped record lacks its first level the bulk insert rejects inside the
   * stream callback, so nothing is inserted and no reply is ever sent. That
   * rejection is unhandled (backend/server.js installs no handler for it),
   * which on current Node ends the server process; the model keeps only the
   * unchanged store and the missing reply. Else the records are inserted and
   * the answer is their count.
   */
  function ImportRoget(st: Store, rows: seq<CsvRow>, firstId: Id): (r: Reply<nat>)
    requires forall k | k in st.data :: k < firstId
    ensures r.response.BadRequest? <==> RogetImported(st.data)
    ensures r.response.BadRequest? ==> r == Reply(BadRequest(AlreadyImportedMessage), st)
    ensures r.response.NoReply? <==> !RogetImported(st.data) && !AllHaveFirstLevel(rows)
    ensures !r.response.Ok? ==> r.store == st
    ensures r.response.Ok? ==>
      && r.response.body == |rows|
      && r.store == st.(data := r.store.data)
      && (forall k :: k in r.store.data <==> k in st.data || firstId <= k < firstId + |rows|)
      && (forall k | k in st.data :: r.store.data[k] == st.data[k])
      && (forall i | 0 <= i < |rows| :: r.store.data[firstId + i] == MapRow(rows[i]))
    ensures r.response.Ok? || r.response.BadRequest? || r.response.NoReply?
  {
    if RogetImported(st.data) then Reply(BadRequest(AlreadyImportedMessage), st)
    else
      var recs := MapRows(rows);
      if exists i | 0 <= i < |recs| :: !ValidData(recs[i]) then Reply(NoReply, st)
      else Reply(Ok(|recs|), st.(data := InsertFrom(st.data, recs, firstId)))
  }

  /** Once rows have been imported, a second import is refused and changes nothing. */
  lemma ImportOnlyOnce(st: Store, rows: seq<CsvRow>, firstId: Id, rows2: seq<CsvRow>, secondId: Id)
    requires forall k | k in st.data :: k < firstId
    requires |rows| > 0
    requires ImportRoget(st, rows, firstId).response.Ok?
    requires forall k | k in ImportRoget(st, rows, firstId).store.data :: k < secondId
    ensures var st1 := ImportRoget(st, rows, firstId).store;
      ImportRoget(st1, rows2, secondId) == Reply(BadRequest(AlreadyImportedMessage), st1)
  {
    var st1 := ImportRoget(st, rows, firstId).store;
    assert st1.data[firstId + 0] == MapRow(rows[0]);
    assert st1.data[firstId].source == Roget;
  }

  /** Valid old records plus valid records stored above them are all valid. */
  lemma InsertedRecordsValid(before: map<Id, HierarchicalData>, after: map<Id, HierarchicalData>,
                             recs: seq<HierarchicalData>, firstId: Id)
    requires forall k | k in before :: ValidData(before[k])
    requires forall k :: k in after <==> k in before || firstId <= k < firstId + |recs|
    requires forall k | k in before :: after[k] == before[k]
    requires forall i | 0 <= i < |recs| :: after[firstId + i] == recs[i]
    requires forall i | 0 <= i < |recs| :: ValidData(recs[i])
    ensures forall k | k in after :: ValidData(after[k])
  {
    forall k | k in after ensures ValidData(after[k]) {
      if k !in before {
        var i := k - firstId;
        assert 0 <= i < |recs| && k == firstId + i;
        assert after[k] == recs[i];
      }
    }
  }

  /** Import keeps every stored taxonomy record valid. */
  lemma ImportKeepsDataValid(st: Store, rows: seq<CsvRow>, firstId: Id)
    requires forall k | k in st.data :: k < firstId
    requires forall k | k in st.data :: ValidData(st.data[k])
    ensures var r := ImportRoget(st, rows, firstId);
      forall k | k in r.store.data :: ValidData(r.store.data[k])
  {
    var r := ImportRoget(st, rows, firstId);
    if !RogetImported(st.data) {
      var recs := MapRows(rows);
      if forall i | 0 <= i < |recs| :: ValidData(recs[i]) {
        var after := InsertFrom(st.data, recs, firstId);
        assert r.store.data == after;
        InsertedRecordsValid(st.data, after, recs, firstId);
      }
    }
  }

  /** The full listing's order: by source name, then by first level. */
  predicate SourceThenLevel(p: (Id, HierarchicalData), q: (Id, HierarchicalData)) {
    LexPairLe((SourceName(p.1.source), p.1.level1), (SourceName(q.1.source), q.1.level1))
  }

  /** The per-source listing's order: by first level. */
  predicate ByLevel(p: (Id, HierarchicalData), q: (Id, HierarchicalData)) {
    LexLe(p.1.level1, q.1.level1)
  }

  lemma ListingOrdersAreTotalPreorders()
    ensures TotalPreorder(SourceThenLevel)
    ensures TotalPreorder(ByLevel)
  {
    forall p: (Id, HierarchicalData), q: (Id, HierarchicalData)
      ensures SourceThenLevel(p, q) || SourceThenLevel(q, p)
      ensures ByLevel(p, q) || ByLevel(q, p)
    {
      LexPairLeTotal((SourceName(p.1.source), p.1.level1), (SourceName(q.1.source), q.1.level1));
      LexLeTotal(p.1.level1, q.1.level1);
    }
    forall p: (Id, HierarchicalData), q: (Id, HierarchicalData), o: (Id, HierarchicalData)
      | SourceThenLevel(p, q) && SourceThenLevel(q, o)
      ensures SourceThenLevel(p, o)
    {
      LexPairLeTransitive((SourceName(p.1.source), p.1.level1), (SourceName(q.1.source), q.1.level1),
                          (SourceName(o.1.source), o.1.level1));
    }
    forall p: (Id, HierarchicalData), q: (Id, HierarchicalData), o: (Id, HierarchicalData)
      | ByLevel(p, q) && ByLevel(q, o)
      ensures ByLevel(p, o)
    {
      LexLeTransitive(p.1.level1, q.1.level1, o.1.level1);
    }
  }

  /** GET of all taxonomy records: every record once, by source and then first level. */
  function ListAll(st: Store): (r: seq<(Id, HierarchicalData)>)
    ensures |r| == |st.data|
    ensures forall p :: p in r <==> p.0 in st.data && st.data[p.0] == p.1
    ensures SortedBy(r, SourceThenLevel)
  {
    var all := Entries(st.data);
    ListingOrdersAreTotalPreorders();
    var r := SortBy(all, SourceThenLevel);
    r
  }

  /**
   * GET of the records whose source is named `source`: exactly those, by first
   * level. A name outside the enumeration matches nothing.
   */
  function ListBySource(st: Store, source: string): (r: seq<(Id, HierarchicalData)>)
    ensures forall p :: p in r <==> p.0 in st.data && st.data[p.0] == p.1 && SourceName(p.1.source) == source
    ensures SortedBy(r, ByLevel)
    ensures NoDup(r)
  {
    var chosen := FilterEntries(Entries(st.data), (d: HierarchicalData) => SourceName(d.source) == source);
    ListingOrdersAreTotalPreorders();
    var r := SortBy(chosen, ByLevel);
    SortByKeepsNoDup(chosen, ByLevel);
    r
  }

  /** A source name outside the enumeration lists nothing. */
  lemma UnknownSourceListsNothing(st: Store, source: string)
    requires source != "roget" && source != "dewey"
    ensures ListBySource(st, source) == []
  {
    var r := ListBySource(st, source);
    HeadIsMember(r);
  }
}

=== FILE: explorer.dfy ===
/**
 * The explorer wizard: a mode tab, then (in focus mode) the choice of a focus
 * concept, then the choice of the concepts to connect. The step counter and
 * the mode select which screen is shown; the buttons on that screen are the
 * only events.
 */
module Explorer {
  import opened Common
  import opened Schema

  /**
   * The wizard's state. A concept not yet chosen, or cleared in the
   * autocomplete, is the empty string: both are falsy to the guards.
   */
  datatype Wizard = Wizard(mode: Mode, step: int, focusTerm: string, term1: string, term2: string, loading: bool)

  /** Play mode, first step, nothing chosen, not submitting. */
  const InitialWizard := Wizard(Play, 0, "", "", "", false)

  datatype Screen = ModeSelection | FocusSelection | TermSelection

  /** The screens the page renders for a step and mode, in page order. */
  function RenderedScreens(step: int, mode: Mode): (r: seq<Screen>)
    ensures |r| <= 1
    ensures ModeSelection in r <==> step == 0
    ensures FocusSelection in r <==> step == 1 && mode == Focus
    ensures TermSelection in r <==> (step == 1 && mode != Focus) || (step == 2 && mode == Focus)
  {
    (if step == 0 then [ModeSelection] else [])
    + (if step == 1 && mode == Focus then [FocusSelection] else [])
    + (if (step == 1 && mode != Focus) || (step == 2 && mode == Focus) then [TermSelection] else [])
  }

  /** The steps the wizard can be on: the mode tab, the next screen, and in focus mode a third. */
  predicate ValidStep(w: Wizard) {
    w.step == 0 || w.step == 1 || (w.step == 2 && w.mode == Focus)
  }

  /** On a valid step exactly one screen is shown; outside them the page is blank. */
  lemma ExactlyOneScreen(w: Wizard)
    ensures |RenderedScreens(w.step, w.mode)| == 1 <==> ValidStep(w)
  {
    var r := RenderedScreens(w.step, w.mode);
    if |r| == 1 {
      assert r[0] in r;
    }
  }

  /** The screen being shown, if any. */
  function Shown(w: Wizard): (r: Option<Screen>)
    ensures r.Some? <==> ValidStep(w)
    ensures r.Some? ==> RenderedScreens(w.step, w.mode) == [r.value]
  {
    if w.step == 0 then Some(ModeSelection)
    else if w.step == 1 && w.mode == Focus then Some(FocusSelection)
    else if (w.step == 1 && w.mode != Focus) || (w.step == 2 && w.mode == Focus) then Some(TermSelection)
    else None
  }

  /** "Explore Connection" is enabled: a concept chosen in focus mode, both concepts otherwise. */
  predicate SubmitEnabled(w: Wizard) {
    if w.mode == Focus then w.term1 != [] else w.term1 != [] && w.term2 != []
  }

  /** The events the page can deliver, one per button or field. */
  datatype Event =
    | ModeChange(newMode: Mode)
    | Next
    | Back
    | Submit
    | ChooseFocus(focus: string)
    | ChooseTerm1(term: string)
    | ChooseTerm2(term: string)

  /**
   * Whether the shown screen offers the event: the tabs and the first
   * Continue on the mode screen, Continue (once a focus is chosen), Back and
   * the focus field on the focus screen, Back, the concept fields and Submit
   * (when enabled) on the term screen. The second concept field exists only
   * outside focus mode.
   */
  predicate Enabled(w: Wizard, ev: Event) {
    match Shown(w)
    case None => false
    case Some(ModeSelection) => ev.ModeChange? || ev.Next?
    case Some(FocusSelection) => (ev.Next? && w.focusTerm != []) || ev.Back? || ev.ChooseFocus?
    case Some(TermSelection) =>
      ev.Back? || ev.ChooseTerm1? || (ev.ChooseTerm2? && w.mode != Focus) || (ev.Submit? && SubmitEnabled(w))
  }

  /** The handlers: a mode change resets the step, Next and Back move it by one, Submit starts loading. */
  function Step(w: Wizard, ev: Event): (r: Wizard)
    ensures ev.ModeChange? ==> r == w.(mode := ev.newMode, step := 0)
    ensures ev.Next? ==> r == w.(step := w.step + 1)
    ensures ev.Back? ==> r == w.(step := w.step - 1)
    ensures ev.Submit? ==> r == w.(loading := true)
    ensures !ev.ModeChange? ==> r.mode == w.mode
    ensures ev.ChooseFocus? ==> r == w.(focusTerm := ev.focus)
    ensures ev.ChooseTerm1? ==> r == w.(term1 := ev.term)
    ensures ev.ChooseTerm2? ==> r == w.(term2 := ev.term)
  {
    match ev
    case ModeChange(m) => w.(mode := m, step := 0)
    case Next => w.(step := w.step + 1)
    case Back => w.(step := w.step - 1)
    case Submit => w.(loading := true)
    case ChooseFocus(f) => w.(focusTerm := f)
    case ChooseTerm1(t) => w.(term1 := t)
    case ChooseTerm2(t) => w.(term2 := t)
  }

  /** Every event the shown screen offers leads to a state that again shows exactly one screen. */
  lemma EnabledKeepsValidStep(w: Wizard, ev: Event)
    requires ValidStep(w) && Enabled(w, ev)
    ensures ValidStep(Step(w, ev))
  {
  }

  /** The wizard opens on the mode tab. */
  lemma InitialShowsModeSelection()
    ensures ValidStep(InitialWizard)
    ensures RenderedScreens(InitialWizard.step, InitialWizard.mode) == [ModeSelection]
  {
  }

  /** Back undoes Next. */
  lemma BackUndoesNext(w: Wizard)
    ensures Step(Step(w, Next), Back) == w
  {
  }

  /** In focus mode the focus screen cannot be left forward until a focus is chosen. */
  lemma FocusContinueNeedsFocus(w: Wizard)
    requires Shown(w) == Some(FocusSelection)
    ensures Enabled(w, Next) <==> w.focusTerm != []
  {
  }

  /** On the concepts screen Submit is offered exactly when the concepts the mode needs are chosen. */
  lemma SubmitNeedsConcepts(w: Wizard)
    requires Shown(w) == Some(TermSelection)
    ensures Enabled(w, Submit) <==> w.term1 != [] && (w.mode != Focus ==> w.term2 != [])
  {
  }

  /** A run of events, each taken only when the screen shown at that moment offers it. */
  predicate EnabledRun(w: Wizard, evs: seq<Event>)
    decreases |evs|
  {
    evs == [] || (Enabled(w, evs[0]) && EnabledRun(Step(w, evs[0]), evs[1..]))
  }

  function RunAll(w: Wizard, evs: seq<Event>): Wizard
    decreases |evs|
  {
    if evs == [] then w else RunAll(Step(w, evs[0]), evs[1..])
  }

  /** Whatever the user clicks, the page always shows exactly one screen. */
  lemma {:induction false} RunKeepsOneScreen(w: Wizard, evs: seq<Event>)
    requires ValidStep(w) && EnabledRun(w, evs)
    ensures ValidStep(RunAll(w, evs))
    ensures |RenderedScreens(RunAll(w, evs).step, RunAll(w, evs).mode)| == 1
    decreases |evs|
  {
    if evs != [] {
      EnabledKeepsValidStep(w, evs[0]);
      RunKeepsOneScreen(Step(w, evs[0]), evs[1..]);
    } else {
      ExactlyOneScreen(w);
    }
  }

  /** The autocomplete's suggestions. */
  const SampleTerms: seq<string> := [
    "Music", "Sports", "Guitar", "Winter", "Snowboard", "Quantum Physics",
    "Artificial Intelligence", "Philosophy", "Art", "Mathematics", "Biology",
    "Chemistry", "Psychology", "Sociology", "Economics", "Politics"]

  /**
   * The options of the concept fields on the term screen, drawn from the
   * suggestions (the page passes `SampleTerms`, see `PageTermOptions`): in focus mode one field
   * without the focus concept; otherwise a first field with every suggestion
   * and a second without the first concept.
   */
  function TermOptions(w: Wizard, suggestions: seq<string>): (r: seq<seq<string>>)
    ensures w.mode == Focus ==> |r| == 1 && w.focusTerm !in r[0]
    ensures w.mode != Focus ==> |r| == 2 && r[0] == suggestions && w.term1 !in r[1]
    ensures forall i, t | 0 <= i < |r| && t in r[i] :: t in suggestions
    ensures forall i, t | 0 <= i < |r| && t in suggestions ::
      t in r[i] || (w.mode == Focus && t == w.focusTerm) || (w.mode != Focus && i == 1 && t == w.term1)
  {
    if w.mode == Focus then [RemoveAll(suggestions, w.focusTerm)]
    else [suggestions, RemoveAll(suggestions, w.term1)]
  }

  /** The options the page shows: every concept offered is one of the sample suggestions. */
  function PageTermOptions(w: Wizard): (r: seq<seq<string>>)
    ensures |r| == (if w.mode == Focus then 1 else 2)
    ensures w.mode != Focus ==> r[0] == SampleTerms
    ensures forall i, t | 0 <= i < |r| && t in r[i] :: t in SampleTerms
  {
    TermOptions(w, SampleTerms)
  }

  /**
   * The options keep the suggestions' order: a suggestion other than the
   * focus concept is offered after the options drawn from the suggestions
   * before it and before those drawn from the suggestions after it.
   */
  lemma FocusOptionsKeepOrder(w: Wizard, before: seq<string>, t: string, after: seq<string>)
    requires w.mode == Focus && t != w.focusTerm
    ensures TermOptions(w, before + [t] + after)[0]
         == RemoveAll(before, w.focusTerm) + [t] + RemoveAll(after, w.focusTerm)
  {
    RemoveAllConcat(before + [t], after, w.focusTerm);
    RemoveAllConcat(before, [t], w.focusTerm);
    RemoveAllSingle(t, w.focusTerm);
  }
}

=== FILE: invariants.dfy ===
/**
 * Every handler keeps the database consistent: stored documents keep passing
 * their schema validation, vote totals keep adding up, the duplicate-free
 * lists stay duplicate-free and the unique indexes keep holding. Saves of
 * records that were already stored are not re-validated by the model; these
 * lemmas show that re-validation could never fail.
 */
module Invariants {
  import opened Common
  import opened Schema
  import opened Store
  import opened Points
  import opened AmalgamationRoutes
  import opened ContributionRoutes
  import opened BadgeRoutes
  import opened DataRoutes

  /** Changing only a user's points, timestamp or badge list keeps the unique indexes. */
  lemma SameIdentityKeepsUnique(users: map<Id, User>, id: Id, u': User)
    requires UniqueUsers(users) && id in users
    requires u'.username == users[id].username && u'.email == users[id].email
    ensures UniqueUsers(users[id := u'])
  {
  }

  lemma CreateAmalgamationConsistent(st: Store, actor: Id, req: CreateRequest, now: int, newId: Id)
    requires newId !in st.amalgamations
    requires Consistent(st)
    ensures Consistent(CreateAmalgamation(st, actor, req, now, newId).store)
  {
    var r := CreateAmalgamation(st, actor, req, now, newId);
    if actor in st.users && !r.response.BadRequest? {
      var u := st.users[actor];
      var u' := r.store.users[actor];
      assert u' == u.(contributionPoints := u'.contributionPoints, lastAmalgamationTime := now);
      SameIdentityKeepsUnique(st.users, actor, u');
    }
  }

  lemma UpdateStatusConsistent(st: Store, actor: Id, id: Id, status: string)
    requires Consistent(st)
    ensures Consistent(UpdateStatus(st, actor, id, status).store)
  {
  }

  /** Storing a valid contribution to a stored amalgamation, and a valid replacement of that amalgamation. */
  lemma ConsistentAfterContributing(st: Store, st': Store, aid: Id, a': Amalgamation, newId: Id, c: Contribution)
    requires Consistent(st) && aid in st.amalgamations
    requires ContributionOk(c) && c.amalgamationId == aid && AmalgamationOk(a')
    requires st'.contributions == st.contributions[newId := c]
    requires st'.amalgamations == st.amalgamations[aid := a']
    requires st'.badges == st.badges && st'.data == st.data
    requires (forall k | k in st'.users :: UserOk(st'.users[k])) && UniqueUsers(st'.users)
    ensures Consistent(st')
  {
  }

  lemma CreateContributionConsistent(st: Store, actor: Id, amalgamationId: Id, text: string,
                                     evaluation: string, now: int, newId: Id)
    requires newId !in st.contributions
    requires Consistent(st)
    ensures Consistent(CreateContribution(st, actor, amalgamationId, text, evaluation, now, newId).store)
  {
    var r := CreateContribution(st, actor, amalgamationId, text, evaluation, now, newId);
    if amalgamationId in st.amalgamations && ParseEvaluation(evaluation).Some? && ValidText(text) {
      var e := ParseEvaluation(evaluation).value;
      var c := NewContribution(amalgamationId, actor, text, e, now);
      assert r == SaveContribution(st, newId, c, e);
      SaveContributionConsistent(st, newId, c, e);
    }
  }

  /** The writes of an accepted contribution keep the database consistent. */
  lemma SaveContributionConsistent(st: Store, newId: Id, c: Contribution, e: Evaluation)
    requires newId !in st.contributions && c.amalgamationId in st.amalgamations
    requires Consistent(st) && ContributionOk(c)
    ensures Consistent(SaveContribution(st, newId, c, e).store)
  {
    var actor := c.userId;
    var st' := SaveContribution(st, newId, c, e).store;
    var a' := st'.amalgamations[c.amalgamationId];
    assert (forall k | k in st'.users :: UserOk(st'.users[k])) && UniqueUsers(st'.users) by {
      if actor in st.users {
        var u' := st'.users[actor];
        assert u' == st.users[actor].(contributionPoints := u'.contributionPoints) by {
          assert u' == AccrueForContribution(st.users[actor], RecordCount(st.contributions, actor) + 1);
        }
        SameIdentityKeepsUnique(st.users, actor, u');
      }
    }
    ConsistentAfterContributing(st, st', c.amalgamationId, a', newId, c);
  }

  lemma EditContributionConsistent(st: Store, actor: Id, id: Id, text: string, now: int)
    requires Consistent(st)
    ensures Consistent(EditContribution(st, actor, id, text, now).store)
  {
  }

  lemma DeleteContributionConsistent(st: Store, actor: Id, id: Id)
    requires Consistent(st)
    ensures Consistent(DeleteContribution(st, actor, id).store)
  {
    var r := DeleteContribution(st, actor, id);
    if id in st.contributions && st.contributions[id].userId == actor {
      var c := st.contributions[id];
      var aid := c.amalgamationId;
      assert aid in st.amalgamations;
      var a' := r.store.amalgamations[aid];
      assert AmalgamationOk(a') by {
        assert AmalgamationOk(st.amalgamations[aid]);
        assert a'.plausibleVotes + a'.notPlausibleVotes + a'.irrelevantVotes
          == Counter(a', Plausible) + Counter(a', NotPlausible) + Counter(a', Irrelevant);
      }
      assert ContributionOk(c.(isRemoved := true)) by {
        assert ContributionOk(c);
      }
      assert (forall k | k in r.store.users :: UserOk(r.store.users[k])) && UniqueUsers(r.store.users) by {
        if actor in st.users {
          SameIdentityKeepsUnique(st.users, actor, r.store.users[actor]);
        }
      }
      ConsistentAfterContributing(st, r.store, aid, a', id, c.(isRemoved := true));
    }
  }

  lemma ToggleLikeConsistent(st: Store, actor: Id, id: Id)
    requires Consistent(st)
    ensures Consistent(ToggleLike(st, actor, id).store)
  {
  }

  lemma CreateBadgeConsistent(st: Store, name: string, description: string, icon: string, criteria: string,
                              category: string, newId: Id)
    requires newId !in st.badges
    requires Consistent(st)
    ensures Consistent(CreateBadge(st, name, description, icon, criteria, category, newId).store)
  {
  }

  lemma AwardBadgeConsistent(st: Store, badgeId: Id, userId: Id)
    requires Consistent(st)
    ensures Consistent(AwardBadge(st, badgeId, userId).store)
  {
    var r := AwardBadge(st, badgeId, userId);
    if r.response.Ok? {
      SameIdentityKeepsUnique(st.users, userId, r.store.users[userId]);
    }
  }

  lemma ImportRogetConsistent(st: Store, rows: seq<CsvRow>, firstId: Id)
    requires forall k | k in st.data :: k < firstId
    requires Consistent(st)
    ensures Consistent(ImportRoget(st, rows, firstId).store)
  {
    ImportKeepsDataValid(st, rows, firstId);
  }
}

=== FILE: points.dfy ===
/**
 * The creation rate limit and the contribution-point economy: one amalgamation
 * per user per hour, a point spent to skip the wait, a point earned with every
 * tenth contribution record, a tenth of a point lost with every removal.
 * Points are counted in tenths; times are milliseconds.
 */
module Points {
  import opened Common
  import opened Schema

  /** One hour in milliseconds. */
  const OneHour: int := 3600000

  /** One contribution point, in tenths. */
  const OnePoint: nat := 10

  /** Every this many contribution records earn a point. */
  const RecordsPerPoint: nat := 10

  /** Fewer than sixty minutes have passed since the user's last creation (a negative gap counts too). */
  predicate WithinHour(u: User, now: int) {
    now - u.lastAmalgamationTime < OneHour
  }

  /**
   * The gate in front of creating an amalgamation. `None` is a refusal; otherwise
   * the user as written back: stamped with `now`, and one point poorer exactly
   * when the point was needed to skip the wait.
   */
  function ChargeForCreation(u: User, now: int): (r: Option<User>)
    ensures r.None? <==> WithinHour(u, now) && u.contributionPoints < OnePoint
    ensures r.Some? ==> r.value.lastAmalgamationTime == now
    ensures r.Some? && WithinHour(u, now) ==> r.value.contributionPoints + OnePoint == u.contributionPoints
    ensures r.Some? && !WithinHour(u, now) ==> r.value.contributionPoints == u.contributionPoints
    ensures r.Some? ==> r.value == u.(contributionPoints := r.value.contributionPoints, lastAmalgamationTime := now)
  {
    if WithinHour(u, now) && u.contributionPoints < OnePoint then None
    else
      var spent := if WithinHour(u, now) && u.contributionPoints >= OnePoint then OnePoint else 0;
      Some(u.(contributionPoints := u.contributionPoints - spent, lastAmalgamationTime := now))
  }

  /**
   * The award after a contribution is saved, given the number of contribution
   * records the user now has (removed ones included): one point when that
   * number is a multiple of ten.
   */
  function AccrueForContribution(u: User, records: nat): (r: User)
    ensures r.contributionPoints >= u.contributionPoints
    ensures r.contributionPoints - u.contributionPoints == (if records % RecordsPerPoint == 0 then OnePoint else 0)
    ensures r == u.(contributionPoints := r.contributionPoints)
  {
    if records % RecordsPerPoint == 0 then u.(contributionPoints := u.contributionPoints + OnePoint) else u
  }

  /** The penalty for removing a contribution: a tenth of a point, never below zero. */
  function DeductForRemoval(u: User): (r: User)
    ensures u.contributionPoints > 0 ==> r.contributionPoints == u.contributionPoints - 1
    ensures u.contributionPoints == 0 ==> r.contributionPoints == 0
    ensures r == u.(contributionPoints := r.contributionPoints)
  {
    u.(contributionPoints := if u.contributionPoints >= 1 then u.contributionPoints - 1 else 0)
  }

  /**
   * A new account's `lastAmalgamationTime` is its creation instant, so with no
   * points it is refused for the whole first hour.
   */
  lemma NewUserIsRateLimited(f: UserFields, created: int, now: int)
    requires now < created + OneHour
    ensures ChargeForCreation(NewUser(f, created), now).None?
  {
  }

  /** A removal does not undo an award: ten records then one removal leave nine tenths. */
  lemma RemovalDoesNotUndoAward(u: User, records: nat)
    requires records % RecordsPerPoint == 0
    ensures DeductForRemoval(AccrueForContribution(u, records)).contributionPoints == u.contributionPoints + OnePoint - 1
  {
  }

  /** The outcome of a run of creation attempts: the user afterwards and how many were accepted. */
  datatype Run = Run(user: User, accepted: nat)

  /** Attempts to create at each of `times`, one after the other. */
  function CreationRun(u: User, times: seq<int>): Run
    decreases |times|
  {
    if times == [] then Run(u, 0)
    else
      match ChargeForCreation(u, times[0])
      case None => CreationRun(u, times[1..])
      case Some(u') =>
        var rest := CreationRun(u', times[1..]);
        Run(rest.user, rest.accepted + 1)
  }

  /**
   * Within the hour after a creation, a user can create exactly as many further
   * amalgamations as whole points they hold (or as they try, if fewer), each
   * costing one point.
   */
  lemma {:induction false} CreationsWithinHourCostPoints(u: User, times: seq<int>)
    requires forall i | 0 <= i < |times| :: u.lastAmalgamationTime <= times[i] < u.lastAmalgamationTime + OneHour
    requires forall i, j | 0 <= i < j < |times| :: times[i] <= times[j]
    ensures var run := CreationRun(u, times);
      && run.accepted == (if |times| < u.contributionPoints / OnePoint then |times| else u.contributionPoints / OnePoint)
      && run.user.contributionPoints == u.contributionPoints - run.accepted * OnePoint
    decreases |times|
  {
    if times != [] {
      assert WithinHour(u, times[0]);
      var tail := times[1..];
      assert forall i | 0 <= i < |tail| :: tail[i] == times[i + 1];
      match ChargeForCreation(u, times[0])
      case None =>
        CreationsWithinHourCostPoints(u, tail);
        assert u.contributionPoints / OnePoint == 0;
      case Some(u') =>
        assert u'.lastAmalgamationTime == times[0];
        CreationsWithinHourCostPoints(u', tail);
        assert u'.contributionPoints / OnePoint == u.contributionPoints / OnePoint - 1;
    }
  }

  /** The user after `n` more contributions, starting from `from` contribution records. */
  function AccrualRun(u: User, from: nat, n: nat): User
    decreases n
  {
    if n == 0 then u else AccrualRun(AccrueForContribution(u, from + 1), from + 1, n - 1)
  }

  /**
   * Points earned from records are one per multiple of ten crossed: going from
   * `from` to `from + n` records adds one point per multiple of ten in between.
   */
  lemma {:induction false} AccrualCountsMultiplesOfTen(u: User, from: nat, n: nat)
    ensures AccrualRun(u, from, n).contributionPoints
      == u.contributionPoints + OnePoint * ((from + n) / RecordsPerPoint - from / RecordsPerPoint)
    decreases n
  {
    if n > 0 {
      var u' := AccrueForContribution(u, from + 1);
      AccrualCountsMultiplesOfTen(u', from + 1, n - 1);
      assert (from + 1) / 10 - from / 10 == (if (from + 1) % 10 == 0 then 1 else 0);
    }
  }
}

=== FILE: schema.dfy ===
/**
 * The document schemas: field types, enumerations, defaults and the
 * validators a document must pass before it is saved.
 * Required strings reject the empty string, as the document mapper's
 * `required` validator does.
 */
module Schema {
  import opened Common
  import opened Text

  /** `maxlength` of a contribution's text. */
  const MaxTextLength: nat := 255

  // ---------------------------------------------------------------- enumerations

  datatype Status = Open | Focused | Closed
  datatype Mode = Focus | Innovator | Play
  datatype Evaluation = Plausible | NotPlausible | Irrelevant
  datatype BadgeCategory = Pioneer | Veteran | Contributor
  datatype Source = Roget | Dewey

  function StatusName(s: Status): string {
    match s
    case Open => "open"
    case Focused => "focused"
    case Closed => "closed"
  }

  /** The enum validator of `status`: only the three names are accepted. */
  function ParseStatus(s: string): (r: Option<Status>)
    ensures r.Some? ==> StatusName(r.value) == s
    ensures r.None? ==> forall x: Status :: StatusName(x) != s
  {
    if s == "open" then Some(Open)
    else if s == "focused" then Some(Focused)
    else if s == "closed" then Some(Closed)
    else None
  }

  function ModeName(m: Mode): string {
    match m
    case Focus => "focus"
    case Innovator => "innovator"
    case Play => "play"
  }

  /** The enum validator of `mode`. */
  function ParseMode(s: string): (r: Option<Mode>)
    ensures r.Some? ==> ModeName(r.value) == s
    ensures r.None? ==> forall x: Mode :: ModeName(x) != s
  {
    if s == "focus" then Some(Focus)
    else if s == "innovator" then Some(Innovator)
    else if s == "play" then Some(Play)
    else None
  }

  function EvaluationName(e: Evaluation): string {
    match e
    case Plausible => "plausible"
    case NotPlausible => "notPlausible"
    case Irrelevant => "irrelevant"
  }

  /** The enum validator shared by a contribution's `evaluation` and `aiPerspective.evaluation`. */
  function ParseEvaluation(s: string): (r: Option<Evaluation>)
    ensures r.Some? ==> EvaluationName(r.value) == s
    ensures r.None? ==> forall x: Evaluation :: EvaluationName(x) != s
  {
    if s == "plausible" then Some(Plausible)
    else if s == "notPlausible" then Some(NotPlausible)
    else if s == "irrelevant" then Some(Irrelevant)
    else None
  }

  function CategoryName(c: BadgeCategory): string {
    match c
    case Pioneer => "pioneer"
    case Veteran => "veteran"
    case Contributor => "contributor"
  }

  /** The enum validator of a badge's `category`. */
  function ParseCategory(s: string): (r: Option<BadgeCategory>)
    ensures r.Some? ==> CategoryName(r.value) == s
    ensures r.None? ==> forall x: BadgeCategory :: CategoryName(x) != s
  {
    if s == "pioneer" then Some(Pioneer)
    else if s == "veteran" then Some(Veteran)
    else if s == "contributor" then Some(Contributor)
    else None
  }

  function SourceName(s: Source): string {
    match s
    case Roget => "roget"
    case Dewey => "dewey"
  }

  // ---------------------------------------------------------------- amalgamation

  /** One concept slot: display text, optional category, optional taxonomy path. */
  datatype Term = Term(text: string, category: Option<string>, hierarchyPath: seq<string>)

  /** The optional machine evaluation; its `evaluation` is one of the three values by typing. */
  datatype AiPerspective = AiPerspective(
    evaluation: Option<Evaluation>,
    confidence: Option<real>,
    explanation: Option<string>)

  const NoAiPerspective := AiPerspective(None, None, None)

  datatype Amalgamation = Amalgamation(
    term1: Term,
    term2: Term,
    createdBy: Id,
    status: Status,
    mode: Mode,
    totalVotes: int,
    plausibleVotes: int,
    notPlausibleVotes: int,
    irrelevantVotes: int,
    aiPerspective: AiPerspective,
    highVolume: bool,
    contributors: seq<Id>,
    contributions: seq<Id>,
    createdAt: int)

  /** The vote counter an evaluation is tallied in. */
  function Counter(a: Amalgamation, e: Evaluation): int {
    match e
    case Plausible => a.plausibleVotes
    case NotPlausible => a.notPlausibleVotes
    case Irrelevant => a.irrelevantVotes
  }

  /** The running total equals the sum of the three per-evaluation counters. */
  predicate TallyConsistent(a: Amalgamation) {
    a.totalVotes == a.plausibleVotes + a.notPlausibleVotes + a.irrelevantVotes
  }

  /** Both term texts are required. */
  predicate ValidAmalgamation(a: Amalgamation) {
    a.term1.text != [] && a.term2.text != []
  }

  /**
   * A new record with every schema default: status open, all counters zero, no
   * machine evaluation, not high-volume, its creator as the only contributor.
   */
  function NewAmalgamation(term1: Term, term2: Term, mode: Mode, creator: Id, now: int): (a: Amalgamation)
    ensures TallyConsistent(a) && a.totalVotes == 0
    ensures forall e :: Counter(a, e) == 0
    ensures a.term1 == term1 && a.term2 == term2 && a.mode == mode && a.createdAt == now
    ensures a.createdBy == creator && a.contributors == [creator] && a.contributions == []
    ensures a.status == Open && !a.highVolume && a.aiPerspective == NoAiPerspective
    ensures NoDup(a.contributors)
    ensures ValidAmalgamation(a) <==> term1.text != [] && term2.text != []
  {
    Amalgamation(term1, term2, creator, Open, mode, 0, 0, 0, 0, NoAiPerspective, false, [creator], [], now)
  }

  // ---------------------------------------------------------------- contribution

  /** One entry of the edit history: when the edit happened and the text it replaced. */
  datatype EditEntry = EditEntry(timestamp: int, previousText: string)

  datatype Contribution = Contribution(
    amalgamationId: Id,
    userId: Id,
    text: string,
    evaluation: Evaluation,
    likes: int,
    likedBy: seq<Id>,
    isRemoved: bool,
    isEdited: bool,
    editHistory: seq<EditEntry>,
    createdAt: int)

  /**
   * The length of a string as JavaScript measures it: UTF-16 code units, so a
   * character outside the Basic Multilingual Plane counts twice.
   */
  function Utf16Length(s: string): (n: nat)
    ensures |s| <= n <= 2 * |s|
    ensures n == |s| <==> forall i | 0 <= i < |s| :: s[i] as int <= 0xFFFF
  {
    if s == [] then 0
    else
      var rest := Utf16Length(s[1..]);
      assert forall i | 0 < i < |s| :: s[i] == s[1..][i - 1];
      (if s[0] as int > 0xFFFF then 2 else 1) + rest
  }

  /** `text` is required and at most 255 UTF-16 code units long. */
  predicate ValidText(t: string)
    ensures ValidText(t) ==> 0 < |t| <= MaxTextLength
    ensures (forall i | 0 <= i < |t| :: t[i] as int <= 0xFFFF) ==> (ValidText(t) <==> 0 < |t| <= MaxTextLength)
  {
    0 < |t| && Utf16Length(t) <= MaxTextLength
  }

  /** 200 emoji are 200 characters but 400 code units, too long for the schema. */
  lemma EmojiTextTooLong()
    ensures var t := seq(200, _ => '\U{1F600}'); |t| == 200 && !ValidText(t)
  {
    var t := seq(200, _ => '\U{1F600}');
    assert forall i | 0 <= i < |t| :: t[i] as int > 0xFFFF;
    AllAstralDoubles(t);
  }

  /** A string of characters outside the Basic Multilingual Plane has twice as many code units. */
  lemma {:induction false} AllAstralDoubles(s: string)
    requires forall i | 0 <= i < |s| :: s[i] as int > 0xFFFF
    ensures Utf16Length(s) == 2 * |s|
  {
    if s != [] {
      assert forall i | 0 <= i < |s[1..]| :: s[1..][i] == s[i + 1];
      AllAstralDoubles(s[1..]);
    }
  }

  predicate ValidContribution(c: Contribution) {
    ValidText(c.text)
  }

  /** The like counter moves in lockstep with the set of likers. */
  predicate LikesConsistent(c: Contribution) {
    c.likes == |c.likedBy| && NoDup(c.likedBy)
  }

  /** A new contribution: no likes, not removed, not edited, no history. */
  function NewContribution(amalgamationId: Id, author: Id, text: string, e: Evaluation, now: int): (c: Contribution)
    ensures c.amalgamationId == amalgamationId && c.userId == author && c.text == text
    ensures c.evaluation == e && c.createdAt == now
    ensures LikesConsistent(c) && c.likes == 0 && c.likedBy == []
    ensures !c.isRemoved && !c.isEdited && c.editHistory == []
    ensures ValidContribution(c) <==> ValidText(text)
  {
    Contribution(amalgamationId, author, text, e, 0, [], false, false, [], now)
  }

  // ---------------------------------------------------------------- user

  datatype Settings = Settings(notifications: bool, theme: string)

  const DefaultSettings := Settings(true, "light")

  /**
   * A user account. Points are kept in tenths of a point, so that the 0.1
   * deduction is exact.
   */
  datatype User = User(
    username: string,
    email: string,
    password: string,
    educationLevel: Option<string>,
    age: Option<real>,
    location: Option<string>,
    socialMediaLink: string,
    contributionPoints: nat,
    badges: seq<Id>,
    settings: Settings,
    lastAmalgamationTime: int,
    createdAt: int)

  /** What a registration supplies. */
  datatype UserFields = UserFields(
    username: string,
    email: string,
    password: string,
    educationLevel: Option<string>,
    age: Option<real>,
    location: Option<string>,
    socialMediaLink: string)

  /** `email` is trimmed and lowercased before it is stored. */
  function NormalizeEmail(email: string): (r: string)
    ensures |r| == |Trim(email)|
    ensures forall i | 0 <= i < |r| :: r[i] == LowerChar(Trim(email)[i])
    ensures IsTrimmed(r)
    ensures forall i | 0 <= i < |r| :: !('A' <= r[i] <= 'Z')
  {
    var t := Trim(email);
    var r := ToLower(t);
    if t != [] then
      LowerKeepsWhitespace(t[0]);
      LowerKeepsWhitespace(t[|t| - 1]);
      r
    else r
  }

  /** Normalising an already normalised address changes nothing. */
  lemma NormalizeEmailIdempotent(email: string)
    ensures NormalizeEmail(NormalizeEmail(email)) == NormalizeEmail(email)
  {
    var n := NormalizeEmail(email);
    TrimmedIsFixed(n);
    assert ToLower(n) == n;
  }

  /** Required: username, email, password and the social-media link. */
  predicate ValidUser(u: User) {
    u.username != [] && u.email != [] && u.password != [] && u.socialMediaLink != []
  }

  /**
   * A new account created at `now`: zero points, no badges, default settings,
   * and `lastAmalgamationTime` defaulting to the creation instant.
   */
  function NewUser(f: UserFields, now: int): (u: User)
    ensures u.username == Trim(f.username) && u.email == NormalizeEmail(f.email)
    ensures u.contributionPoints == 0 && u.badges == []
    ensures u.lastAmalgamationTime == u.createdAt == now
    ensures ValidUser(u) <==> Trim(f.username) != [] && NormalizeEmail(f.email) != [] && f.password != [] && f.socialMediaLink != []
  {
    User(Trim(f.username), NormalizeEmail(f.email), f.password, f.educationLevel, f.age, f.location,
         f.socialMediaLink, 0, [], DefaultSettings, now, now)
  }

  // ---------------------------------------------------------------- badge

  datatype Badge = Badge(name: string, description: string, icon: string, criteria: string, category: BadgeCategory)

  /** name, description, icon and criteria are required (the category is required by typing). */
  predicate ValidBadge(b: Badge) {
    b.name != [] && b.description != [] && b.icon != [] && b.criteria != []
  }

  // ---------------------------------------------------------------- taxonomy

  /** A taxonomy row; an empty `level2`..`level4` stands for an absent optional level. */
  datatype HierarchicalData = HierarchicalData(
    source: Source,
    level1: string,
    level2: string,
    level3: string,
    level4: string,
    terms: seq<string>)

  /** `level1` is required, so an empty one fails validation. */
  predicate ValidData(d: HierarchicalData) {
    d.level1 != []
  }
}

=== FILE: slice.dfy ===
/**
 * The client's amalgamation store: the list shown on the dashboard, the
 * record being viewed, a loading flag and the last error, changed only by the
 * eight reducer actions.
 */
module AmalgamationSlice {
  import opened Common
  import opened Schema

  /** An amalgamation as the client holds it: its id, its fields and its populated contributions. */
  datatype Item = Item(id: Id, record: Amalgamation, contributions: seq<Contribution>)

  /** The error payload: a JSON object, as field name to message. */
  type ErrorInfo = map<string, string>

  datatype SliceState = SliceState(
    amalgamations: seq<Item>,
    current: Option<Item>,
    loading: bool,
    error: ErrorInfo)

  /** Nothing loaded yet, nothing selected, loading, no error. */
  const InitialState := SliceState([], None, true, map[])

  datatype Action =
    | GetAmalgamations(list: seq<Item>)
    | GetAmalgamation(item: Option<Item>)
    | CreateAmalgamation(created: Item)
    | UpdateAmalgamation(updated: Item)
    | AddContribution(contribution: Contribution)
    | SetLoading
    | SetError(info: ErrorInfo)
    | ClearError

  /** Every item whose id matches the payload's is replaced by the payload; the rest stay. */
  function ReplaceById(items: seq<Item>, p: Item): (r: seq<Item>)
    ensures |r| == |items|
    ensures forall i | 0 <= i < |r| :: items[i].id == p.id ==> r[i] == p
    ensures forall i | 0 <= i < |r| :: items[i].id != p.id ==> r[i] == items[i]
  {
    if items == [] then []
    else [if items[0].id == p.id then p else items[0]] + ReplaceById(items[1..], p)
  }

  /** `[payload, ...contributions]` on the current record, when there is one. */
  function PrependContribution(current: Option<Item>, c: Contribution): (r: Option<Item>)
    ensures current.None? ==> r.None?
    ensures current.Some? ==>
      && r.Some? && r.value.id == current.value.id && r.value.record == current.value.record
      && |r.value.contributions| == |current.value.contributions| + 1
      && r.value.contributions[0] == c && r.value.contributions[1..] == current.value.contributions
  {
    match current
    case None => None
    case Some(item) => Some(item.(contributions := [c] + item.contributions))
  }

  /**
   * The reducer. The list changes only on the three list actions, the
   * current record only on fetching one and on adding a contribution, the
   * error only on setting and clearing it, and every fetch or change of
   * records ends the loading state.
   */
  function Reduce(s: SliceState, a: Action): (r: SliceState)
    ensures !(a.GetAmalgamations? || a.CreateAmalgamation? || a.UpdateAmalgamation?) ==>
      r.amalgamations == s.amalgamations
    ensures !(a.GetAmalgamation? || a.AddContribution?) ==> r.current == s.current
    ensures !(a.SetError? || a.ClearError?) ==> r.error == s.error
    ensures a.SetLoading? ==> r.loading
    ensures a.AddContribution? || a.ClearError? ==> r.loading == s.loading
    ensures !(a.SetLoading? || a.AddContribution? || a.ClearError?) ==> !r.loading
    ensures a.GetAmalgamations? ==> r.amalgamations == a.list
    ensures a.GetAmalgamation? ==> r.current == a.item
    ensures a.CreateAmalgamation? ==>
      |r.amalgamations| == |s.amalgamations| + 1
      && r.amalgamations[0] == a.created && r.amalgamations[1..] == s.amalgamations
    ensures a.UpdateAmalgamation? ==>
      && |r.amalgamations| == |s.amalgamations|
      && (forall i | 0 <= i < |r.amalgamations| ::
            r.amalgamations[i] == (if s.amalgamations[i].id == a.updated.id then a.updated else s.amalgamations[i]))
    ensures a.AddContribution? && s.current.None? ==> r == s
    ensures a.AddContribution? ==> r.current == PrependContribution(s.current, a.contribution)
    ensures a.SetError? ==> r.error == a.info
    ensures a.ClearError? ==> r.error == map[]
  {
    match a
    case GetAmalgamations(list) => s.(amalgamations := list, loading := false)
    case GetAmalgamation(item) => s.(current := item, loading := false)
    case CreateAmalgamation(item) => s.(amalgamations := [item] + s.amalgamations, loading := false)
    case UpdateAmalgamation(item) => s.(amalgamations := ReplaceById(s.amalgamations, item), loading := false)
    case AddContribution(c) => s.(current := PrependContribution(s.current, c))
    case SetLoading => s.(loading := true)
    case SetError(info) => s.(error := info, loading := false)
    case ClearError => s.(error := map[])
  }

  /** Applying the same update twice is the same as applying it once. */
  lemma UpdateIdempotent(s: SliceState, p: Item)
    ensures Reduce(Reduce(s, UpdateAmalgamation(p)), UpdateAmalgamation(p)) == Reduce(s, UpdateAmalgamation(p))
  {
    var once := Reduce(s, UpdateAmalgamation(p));
    var twice := Reduce(once, UpdateAmalgamation(p));
    assert twice.amalgamations == once.amalgamations;
  }

  /** An update whose id is not in the list changes nothing in it. */
  lemma UpdateUnknownIdKeepsList(s: SliceState, p: Item)
    requires forall i | 0 <= i < |s.amalgamations| :: s.amalgamations[i].id != p.id
    ensures Reduce(s, UpdateAmalgamation(p)).amalgamations == s.amalgamations
  {
  }

  /** After creating an item and then updating it, the list starts with the update and keeps the rest. */
  lemma UpdateAfterCreate(s: SliceState, p: Item, q: Item)
    requires p.id == q.id
    requires forall i | 0 <= i < |s.amalgamations| :: s.amalgamations[i].id != p.id
    ensures Reduce(Reduce(s, CreateAmalgamation(p)), UpdateAmalgamation(q)).amalgamations == [q] + s.amalgamations
  {
    var created := Reduce(s, CreateAmalgamation(p));
    var updated := Reduce(created, UpdateAmalgamation(q));
    assert updated.amalgamations[0] == q;
    assert forall i | 1 <= i < |updated.amalgamations| :: created.amalgamations[i] == s.amalgamations[i - 1];
    assert updated.amalgamations == [q] + s.amalgamations;
  }

  /** Clearing an error that was just set leaves only the ended loading state behind. */
  lemma SetErrorThenClear(s: SliceState, info: ErrorInfo)
    ensures Reduce(Reduce(s, SetError(info)), ClearError) == s.(loading := false, error := map[])
  {
  }

  /** From the initial state, fetching the list shows exactly it and stops loading. */
  lemma FirstFetch(list: seq<Item>)
    ensures Reduce(InitialState, GetAmalgamations(list)) == SliceState(list, None, false, map[])
  {
  }
}

=== FILE: sorting.dfy ===
/**
 * Ordered listings: the `.sort({...})` of a query, and the stable id order a
 * collection is scanned in.
 */
module Sorting {
  import opened Common
  import opened Text

  /** `le` is a total preorder: any two elements compare, and comparison chains. */
  ghost predicate TotalPreorder<T(!new)>(le: (T, T) -> bool) {
    && (forall a, b :: le(a, b) || le(b, a))
    && (forall a, b, c :: le(a, b) && le(b, c) ==> le(a, c))
  }

  /** Every element is `le` every later element. */
  predicate SortedBy<T>(s: seq<T>, le: (T, T) -> bool) {
    forall i, j | 0 <= i < j < |s| :: le(s[i], s[j])
  }

  /** Inserts `x` into a sorted list, before the first element it is `le` to. */
  function Insert<T(!new)>(x: T, s: seq<T>, le: (T, T) -> bool): (r: seq<T>)
    requires TotalPreorder(le)
    requires SortedBy(s, le)
    ensures SortedBy(r, le)
    ensures multiset(r) == multiset(s) + multiset{x}
  {
    if s == [] then [x]
    else if le(x, s[0]) then [x] + s
    else
      var rest := Insert(x, s[1..], le);
      assert s == [s[0]] + s[1..];
      assert forall k | 0 <= k < |rest| :: le(s[0], rest[k]) by {
        forall k | 0 <= k < |rest| ensures le(s[0], rest[k]) {
          assert rest[k] in multiset(rest);
          if rest[k] != x {
            assert rest[k] in multiset(s[1..]);
            var j :| 0 <= j < |s[1..]| && s[1..][j] == rest[k];
            assert s[j + 1] == rest[k];
          }
        }
      }
      [s[0]] + rest
  }

  /** Sorts by repeated insertion: the result is a sorted permutation of the input. */
  function SortBy<T(!new)>(s: seq<T>, le: (T, T) -> bool): (r: seq<T>)
    requires TotalPreorder(le)
    ensures SortedBy(r, le)
    ensures multiset(r) == multiset(s)
    ensures |r| == |s|
    ensures forall x :: x in r <==> x in s
  {
    if s == [] then []
    else
      assert s == [s[0]] + s[1..];
      var r := Insert(s[0], SortBy(s[1..], le), le);
      SameMultisetSameMembers(r, s);
      r
  }

  /** Inserting an element that is absent into a duplicate-free list keeps it duplicate-free. */
  lemma {:induction false} InsertKeepsNoDup<T(!new)>(x: T, s: seq<T>, le: (T, T) -> bool)
    requires TotalPreorder(le) && SortedBy(s, le)
    requires x !in s && NoDup(s)
    ensures NoDup(Insert(x, s, le))
  {
    var r := Insert(x, s, le);
    if s == [] {
    } else if le(x, s[0]) {
      assert r == [x] + s;
      NoDupUncons(r);
      assert r[1..] == s;
    } else {
      NoDupUncons(s);
      assert SortedBy(s[1..], le) by {
        forall i, j | 0 <= i < j < |s[1..]| ensures le(s[1..][i], s[1..][j]) {
          assert s[1..][i] == s[i + 1] && s[1..][j] == s[j + 1];
        }
      }
      assert x !in s[1..];
      InsertKeepsNoDup(x, s[1..], le);
      var rest := Insert(x, s[1..], le);
      assert r == [s[0]] + rest;
      assert s[0] !in rest by {
        assert s[0] !in multiset(s[1..]) && s[0] != x;
        assert s[0] !in multiset(rest);
      }
      NoDupUncons(r);
      assert r[1..] == rest;
    }
  }

  /** Sorting a duplicate-free list gives a duplicate-free list. */
  lemma {:induction false} SortByKeepsNoDup<T(!new)>(s: seq<T>, le: (T, T) -> bool)
    requires TotalPreorder(le) && NoDup(s)
    ensures NoDup(SortBy(s, le))
  {
    if s != [] {
      NoDupUncons(s);
      SortByKeepsNoDup(s[1..], le);
      InsertKeepsNoDup(s[0], SortBy(s[1..], le), le);
      assert s == [s[0]] + s[1..];
    }
  }

  /** Two lists with the same multiset have the same members. */
  lemma SameMultisetSameMembers<T>(a: seq<T>, b: seq<T>)
    requires multiset(a) == multiset(b)
    ensures forall x :: x in a <==> x in b
  {
    forall x ensures x in a <==> x in b {
      assert x in a <==> x in multiset(a);
      assert x in b <==> x in multiset(b);
    }
  }

  /** Strictly increasing. */
  predicate Increasing(s: seq<nat>) {
    forall i, j | 0 <= i < j < |s| :: s[i] < s[j]
  }

  /** Every element of `s` is at least `m`. */
  predicate LowerBound(m: nat, s: set<nat>) {
    forall y | y in s :: m <= y
  }

  /** The least element of a non-empty set of naturals. */
  function Min(s: set<nat>): (m: nat)
    requires s != {}
    ensures m in s && LowerBound(m, s)
  {
    var w := LeastOf(s);
    var m :| m in s && LowerBound(m, s);
    m
  }

  /** A least element, found by removing elements one at a time. */
  ghost function LeastOf(s: set<nat>): (m: nat)
    requires s != {}
    ensures m in s && LowerBound(m, s)
  {
    var x :| x in s;
    var rest := s - {x};
    if rest == {} then
      assert s == {x};
      x
    else
      var m := LeastOf(rest);
      var best := if x < m then x else m;
      assert forall y | y in s :: y == x || y in rest;
      best
  }

  /** The elements of a set of ids in ascending order: the order a collection is scanned in. */
  function Ascending(s: set<nat>): (r: seq<nat>)
    ensures |r| == |s|
    ensures forall x :: x in r <==> x in s
    ensures Increasing(r)
    decreases |s|
  {
    if s == {} then []
    else
      var m := Min(s);
      var rest := Ascending(s - {m});
      var r := [m] + rest;
      assert forall j | 0 < j < |r| :: r[j] == rest[j - 1];
      assert forall j | 0 < j < |r| :: m < r[j] by {
        forall j | 0 < j < |r| ensures m < r[j] {
          assert rest[j - 1] in s - {m};
        }
      }
      r
  }

  /** Increasing lists have no duplicates. */
  lemma IncreasingNoDup(s: seq<nat>)
    requires Increasing(s)
    ensures NoDup(s)
  {
  }

  /** Pairs each key with its record, in the keys' order. */
  function Pairs<V>(keys: seq<nat>, m: map<nat, V>): (r: seq<(nat, V)>)
    requires forall i | 0 <= i < |keys| :: keys[i] in m
    ensures |r| == |keys|
    ensures forall i | 0 <= i < |r| :: r[i] == (keys[i], m[keys[i]])
  {
    if keys == [] then [] else [(keys[0], m[keys[0]])] + Pairs(keys[1..], m)
  }

  /** The pairs of all of a map's keys are exactly its entries. */
  lemma PairsMembership<V>(keys: seq<nat>, m: map<nat, V>)
    requires forall k :: k in keys <==> k in m
    ensures forall p :: p in Pairs(keys, m) <==> p.0 in m && m[p.0] == p.1
  {
    var r := Pairs(keys, m);
    forall p ensures p in r <==> p.0 in m && m[p.0] == p.1 {
      if p in r {
        var i :| 0 <= i < |r| && r[i] == p;
        assert keys[i] in keys;
      }
      if p.0 in m && m[p.0] == p.1 {
        var i :| 0 <= i < |keys| && keys[i] == p.0;
        assert r[i] == p;
      }
    }
  }

  /** The id/record pairs of a map, in ascending id order. */
  function Entries<V(!new)>(m: map<nat, V>): (r: seq<(nat, V)>)
    ensures |r| == |m|
    ensures forall p :: p in r <==> p.0 in m && m[p.0] == p.1
    ensures forall i, j | 0 <= i < j < |r| :: r[i].0 < r[j].0
    ensures NoDup(r)
  {
    var keys := Ascending(m.Keys);
    assert forall i | 0 <= i < |keys| :: keys[i] in m by {
      forall i | 0 <= i < |keys| ensures keys[i] in m {
        assert keys[i] in keys;
      }
    }
    PairsMembership(keys, m);
    assert |m.Keys| == |m|;
    Pairs(keys, m)
  }

  /** The entries whose record satisfies `keep`, in the original order. */
  function FilterEntries<V(!new)>(s: seq<(nat, V)>, keep: V -> bool): (r: seq<(nat, V)>)
    ensures |r| <= |s|
    ensures forall p :: p in r <==> p in s && keep(p.1)
    ensures NoDup(s) ==> NoDup(r)
  {
    if s == [] then []
    else
      var rest := FilterEntries(s[1..], keep);
      assert forall p :: p in s <==> p == s[0] || p in s[1..];
      NoDupUncons(s);
      if keep(s[0].1) then
        NoDupUncons([s[0]] + rest);
        assert ([s[0]] + rest)[1..] == rest;
        [s[0]] + rest
      else rest
  }

  /** String order, as a `.sort({ key: 1 })` on a string field compares. */
  lemma LexLeIsTotalPreorder()
    ensures TotalPreorder(LexLe)
  {
    forall a, b ensures LexLe(a, b) || LexLe(b, a) {
      LexLeTotal(a, b);
    }
    forall a, b, c | LexLe(a, b) && LexLe(b, c) ensures LexLe(a, c) {
      LexLeTransitive(a, b, c);
    }
  }

  /** Two-key order, as `.sort({ first: 1, second: 1 })`: by the first string, ties by the second. */
  predicate LexPairLe(a: (string, string), b: (string, string)) {
    (a.0 != b.0 && LexLe(a.0, b.0)) || (a.0 == b.0 && LexLe(a.1, b.1))
  }

  lemma LexPairLeTotal(a: (string, string), b: (string, string))
    ensures LexPairLe(a, b) || LexPairLe(b, a)
  {
    LexLeTotal(a.0, b.0);
    LexLeTotal(a.1, b.1);
  }

  lemma LexPairLeTransitive(a: (string, string), b: (string, string), c: (string, string))
    requires LexPairLe(a, b) && LexPairLe(b, c)
    ensures LexPairLe(a, c)
  {
    if a.0 == b.0 && b.0 == c.0 {
      LexLeTransitive(a.1, b.1, c.1);
    } else {
      if a.0 != b.0 && b.0 != c.0 {
        LexLeTransitive(a.0, b.0, c.0);
      }
      if a.0 == c.0 {
        LexLeAntisymmetric(a.0, b.0);
      }
    }
  }

  lemma LexPairLeIsTotalPreorder()
    ensures TotalPreorder(LexPairLe)
  {
    forall a, b ensures LexPairLe(a, b) || LexPairLe(b, a) {
      LexPairLeTotal(a, b);
    }
    forall a, b, c | LexPairLe(a, b) && LexPairLe(b, c) ensures LexPairLe(a, c) {
      LexPairLeTransitive(a, b, c);
    }
  }
}

=== FILE: store.dfy ===
/**
 * The abstract database the route handlers read and write, the responses they
 * send, and the consistency invariant every handler preserves.
 */
module Store {
  import opened Common
  import opened Schema
  import opened Text

  /** One map per collection, from document id to document. */
  datatype Store = Store(
    users: map<Id, User>,
    amalgamations: map<Id, Amalgamation>,
    contributions: map<Id, Contribution>,
    badges: map<Id, Badge>,
    data: map<Id, HierarchicalData>)

  /**
   * What a handler answers. `BadRequest` is status 400 with its message,
   * `Unauthorized` 401, `NotFound` 404, `ServerError` the catch-all 500 (a failed
   * validation on save, or a property read on a missing record), and `NoReply`
   * a request that never gets an answer because the error is thrown inside an
   * asynchronous callback. Such an unhandled rejection ends the whole server
   * process on current Node; the model records only this request's outcome.
   */
  datatype Response<+T> =
    | Ok(body: T)
    | BadRequest(msg: string)
    | Unauthorized
    | NotFound
    | ServerError
    | NoReply

  /** A handler's response together with the database after the request. */
  datatype Reply<+T> = Reply(response: Response<T>, store: Store)

  /** Usernames and emails are each unique across users (the unique indexes). */
  predicate UniqueUsers(users: map<Id, User>) {
    forall i, j | i in users && j in users && i != j ::
      users[i].username != users[j].username && users[i].email != users[j].email
  }

  /** Badge names are unique (the unique index). */
  predicate UniqueBadgeNames(badges: map<Id, Badge>) {
    forall i, j | i in badges && j in badges && i != j :: badges[i].name != badges[j].name
  }

  predicate AmalgamationOk(a: Amalgamation) {
    ValidAmalgamation(a) && TallyConsistent(a) && NoDup(a.contributors)
  }

  predicate ContributionOk(c: Contribution) {
    ValidContribution(c) && LikesConsistent(c)
  }

  predicate UserOk(u: User) {
    ValidUser(u) && NoDup(u.badges)
  }

  /**
   * Every stored document passes its schema validation, vote totals add up,
   * contributor and liker lists and badge lists are duplicate-free, like
   * counters match their liker lists, every contribution belongs to a stored
   * amalgamation, and the unique indexes hold.
   */
  predicate Consistent(st: Store) {
    && (forall id | id in st.amalgamations :: AmalgamationOk(st.amalgamations[id]))
    && (forall id | id in st.contributions ::
          ContributionOk(st.contributions[id]) && st.contributions[id].amalgamationId in st.amalgamations)
    && (forall id | id in st.users :: UserOk(st.users[id]))
    && UniqueUsers(st.users)
    && (forall id | id in st.badges :: ValidBadge(st.badges[id]))
    && UniqueBadgeNames(st.badges)
    && (forall id | id in st.data :: ValidData(st.data[id]))
  }

  /** The empty database. */
  const EmptyStore := Store(map[], map[], map[], map[], map[])

  lemma EmptyStoreConsistent()
    ensures Consistent(EmptyStore)
  {
  }

  /**
   * Why inserting a new user fails: a required field is empty, the
   * password-hashing hook threw, or a unique index is violated.
   */
  datatype SaveError = ValidationFailed | HashingFailed | DuplicateKey

  datatype SaveResult = Saved(store: Store) | Rejected(reason: SaveError)

  /**
   * Saving a new account: normalise the fields, validate them, then check the
   * unique indexes on username and email.
   */
  function SaveNewUser(st: Store, id: Id, f: UserFields, now: int): (r: SaveResult)
    requires id !in st.users
    ensures r == Rejected(ValidationFailed) <==> !ValidUser(NewUser(f, now))
    ensures r.Saved? <==>
      && ValidUser(NewUser(f, now))
      && (forall k | k in st.users ::
            st.users[k].username != Trim(f.username) && st.users[k].email != NormalizeEmail(f.email))
    ensures ValidUser(NewUser(f, now)) && !r.Saved? ==> r == Rejected(DuplicateKey)
    ensures r.Saved? ==> r.store == st.(users := st.users[id := NewUser(f, now)])
    ensures r.Saved? && Consistent(st) ==> Consistent(r.store)
  {
    var u := NewUser(f, now);
    if !ValidUser(u) then Rejected(ValidationFailed)
    else if exists k | k in st.users :: st.users[k].username == u.username || st.users[k].email == u.email then
      Rejected(DuplicateKey)
    else
      if Consistent(st) then
        InsertUserKeepsConsistent(st, id, u);
        Saved(st.(users := st.users[id := u]))
      else
        Saved(st.(users := st.users[id := u]))
  }

  /**
   * Saving a new account as the schema file is written: the module bound to
   * the name of the hashing library is the token library, which has no salt
   * generator, so once validation passes the pre-save hook of a new password
   * always throws and the save is rejected before any index is consulted.
   */
  function SaveNewUserAsWritten(st: Store, id: Id, f: UserFields, now: int): (r: SaveResult)
    requires id !in st.users
    ensures !r.Saved?
    ensures r == Rejected(ValidationFailed) <==> !ValidUser(NewUser(f, now))
    ensures r == Rejected(HashingFailed) <==> ValidUser(NewUser(f, now))
  {
    if !ValidUser(NewUser(f, now)) then Rejected(ValidationFailed) else Rejected(HashingFailed)
  }

  /**
   * A well-formed first account on an empty database: the intended save
   * stores it, the save as written rejects it.
   */
  lemma FirstAccountRejectedAsWritten()
    ensures var f := UserFields("a", "b", "c", None, None, None, "d");
      && SaveNewUser(EmptyStore, 0, f, 0).Saved?
      && SaveNewUserAsWritten(EmptyStore, 0, f, 0) == Rejected(HashingFailed)
  {
    var f := UserFields("a", "b", "c", None, None, None, "d");
    assert IsTrimmed("a") && IsTrimmed("b");
    TrimmedIsFixed("a");
    TrimmedIsFixed("b");
    assert ToLower("b") == "b";
    assert ValidUser(NewUser(f, 0));
  }

  /**
   * The two saves agree on validation, and every account the intended save
   * stores is rejected by the hashing hook as written.
   */
  lemma AsWrittenRejectsEverySavedAccount(st: Store, id: Id, f: UserFields, now: int)
    requires id !in st.users
    ensures SaveNewUser(st, id, f, now) == Rejected(ValidationFailed)
        <==> SaveNewUserAsWritten(st, id, f, now) == Rejected(ValidationFailed)
    ensures SaveNewUser(st, id, f, now).Saved? ==> SaveNewUserAsWritten(st, id, f, now) == Rejected(HashingFailed)
  {
  }

  /** A valid account whose username and email are new keeps the store consistent. */
  lemma InsertUserKeepsConsistent(st: Store, id: Id, u: User)
    requires Consistent(st) && id !in st.users
    requires ValidUser(u) && u.badges == []
    requires forall k | k in st.users :: st.users[k].username != u.username && st.users[k].email != u.email
    ensures Consistent(st.(users := st.users[id := u]))
  {
    var users := st.users[id := u];
    forall i, j | i in users && j in users && i != j
      ensures users[i].username != users[j].username && users[i].email != users[j].email
    {
      if i != id && j != id {
        assert users[i] == st.users[i] && users[j] == st.users[j];
      }
    }
    assert UserOk(u);
  }
}

=== FILE: tally.dfy ===
/**
 * The vote counters as a cache of the live contributions: an amalgamation's
 * counter for an evaluation should equal the number of its contributions with
 * that evaluation that have not been removed. Creation keeps the cache exact,
 * and so does deleting a live contribution; deleting an already removed one
 * (which the handler allows) does not.
 */
module TallyAudit {
  import opened Common
  import opened Schema
  import opened Store
  import opened ContributionRoutes
  import opened AmalgamationRoutes

  /** Ids of the live contributions to `aid` with evaluation `e`. */
  function LiveVoters(cs: map<Id, Contribution>, aid: Id, e: Evaluation): set<Id> {
    set k | k in cs && Live(aid, cs[k]) && cs[k].evaluation == e
  }

  /** Ids of all live contributions to `aid`. */
  function LiveIds(cs: map<Id, Contribution>, aid: Id): set<Id> {
    set k | k in cs && Live(aid, cs[k])
  }

  /** The counters of `a` (stored under `aid`) count exactly its live contributions. */
  predicate CountsMatch(a: Amalgamation, cs: map<Id, Contribution>, aid: Id) {
    && a.plausibleVotes == |LiveVoters(cs, aid, Plausible)|
    && a.notPlausibleVotes == |LiveVoters(cs, aid, NotPlausible)|
    && a.irrelevantVotes == |LiveVoters(cs, aid, Irrelevant)|
    && a.totalVotes == |LiveIds(cs, aid)|
  }

  predicate TallyMatches(st: Store) {
    forall aid | aid in st.amalgamations :: CountsMatch(st.amalgamations[aid], st.contributions, aid)
  }

  /** A derived cache that matches is in particular internally consistent: total = sum of the three. */
  lemma MatchingTallyIsConsistent(a: Amalgamation, cs: map<Id, Contribution>, aid: Id)
    requires CountsMatch(a, cs, aid)
    ensures TallyConsistent(a)
  {
    var p := LiveVoters(cs, aid, Plausible);
    var n := LiveVoters(cs, aid, NotPlausible);
    var i := LiveVoters(cs, aid, Irrelevant);
    forall k | k in LiveIds(cs, aid) ensures k in p + n + i {
      assert k in LiveVoters(cs, aid, cs[k].evaluation);
    }
    assert LiveIds(cs, aid) == p + n + i;
    assert p !! n && (p + n) !! i;
    assert |p + n| == |p| + |n|;
    assert |p + n + i| == |p + n| + |i|;
  }

  /** The two contribution maps agree on every record's amalgamation, evaluation and removal flag. */
  predicate SameVotes(cs: map<Id, Contribution>, cs': map<Id, Contribution>) {
    cs.Keys == cs'.Keys
    && forall k | k in cs ::
         cs[k].amalgamationId == cs'[k].amalgamationId && cs[k].evaluation == cs'[k].evaluation
         && cs[k].isRemoved == cs'[k].isRemoved
  }

  lemma SameVotesSameCounts(cs: map<Id, Contribution>, cs': map<Id, Contribution>, aid: Id)
    requires SameVotes(cs, cs')
    ensures LiveIds(cs, aid) == LiveIds(cs', aid)
    ensures forall e :: LiveVoters(cs, aid, e) == LiveVoters(cs', aid, e)
  {
  }

  /** Any change that keeps the amalgamations' counters and the contributions' votes keeps the match. */
  lemma TallyMatchesFrame(st: Store, st': Store)
    requires TallyMatches(st)
    requires st'.amalgamations.Keys == st.amalgamations.Keys
    requires forall aid | aid in st.amalgamations :: SameTally(st.amalgamations[aid], st'.amalgamations[aid])
    requires SameVotes(st.contributions, st'.contributions)
    ensures TallyMatches(st')
  {
    forall aid | aid in st'.amalgamations
      ensures CountsMatch(st'.amalgamations[aid], st'.contributions, aid)
    {
      SameVotesSameCounts(st.contributions, st'.contributions, aid);
    }
  }

  /** The four counters are equal. */
  predicate SameTally(a: Amalgamation, b: Amalgamation) {
    a.totalVotes == b.totalVotes && a.plausibleVotes == b.plausibleVotes
    && a.notPlausibleVotes == b.notPlausibleVotes && a.irrelevantVotes == b.irrelevantVotes
  }

  /** Adding a live contribution to `aid` grows exactly its sets, by the new id. */
  lemma InsertGrowsSets(cs: map<Id, Contribution>, id: Id, c: Contribution, aid: Id, e: Evaluation)
    requires id !in cs && !c.isRemoved
    ensures LiveIds(cs[id := c], aid) == LiveIds(cs, aid) + (if c.amalgamationId == aid then {id} else {})
    ensures LiveVoters(cs[id := c], aid, e)
      == LiveVoters(cs, aid, e) + (if c.amalgamationId == aid && c.evaluation == e then {id} else {})
  {
  }

  /** The same growth counted: the new id is in none of the old sets. */
  lemma InsertGrowsCounts(cs: map<Id, Contribution>, id: Id, c: Contribution, aid: Id, e: Evaluation)
    requires id !in cs && !c.isRemoved
    ensures |LiveIds(cs[id := c], aid)| == |LiveIds(cs, aid)| + (if c.amalgamationId == aid then 1 else 0)
    ensures |LiveVoters(cs[id := c], aid, e)|
      == |LiveVoters(cs, aid, e)| + (if c.amalgamationId == aid && c.evaluation == e then 1 else 0)
  {
    InsertGrowsSets(cs, id, c, aid, e);
    assert id !in LiveIds(cs, aid) && id !in LiveVoters(cs, aid, e);
  }

  /** Casting the vote of a new live contribution keeps its amalgamation's counts exact. */
  lemma CastKeepsCounts(a: Amalgamation, a': Amalgamation, cs: map<Id, Contribution>, id: Id, c: Contribution)
    requires id !in cs && !c.isRemoved
    requires CountsMatch(a, cs, c.amalgamationId)
    requires a'.totalVotes == a.totalVotes + 1
    requires Counter(a', c.evaluation) == Counter(a, c.evaluation) + 1
    requires forall e | e != c.evaluation :: Counter(a', e) == Counter(a, e)
    ensures CountsMatch(a', cs[id := c], c.amalgamationId)
  {
    var aid := c.amalgamationId;
    InsertGrowsCounts(cs, id, c, aid, Plausible);
    InsertGrowsCounts(cs, id, c, aid, NotPlausible);
    InsertGrowsCounts(cs, id, c, aid, Irrelevant);
    assert Counter(a', Plausible) == a'.plausibleVotes && Counter(a, Plausible) == a.plausibleVotes;
    assert Counter(a', NotPlausible) == a'.notPlausibleVotes && Counter(a, NotPlausible) == a.notPlausibleVotes;
    assert Counter(a', Irrelevant) == a'.irrelevantVotes && Counter(a, Irrelevant) == a.irrelevantVotes;
  }

  /** A new contribution to another amalgamation leaves this one's counts exact. */
  lemma InsertElsewhereKeepsCounts(a: Amalgamation, cs: map<Id, Contribution>, id: Id, c: Contribution, aid: Id)
    requires id !in cs && !c.isRemoved && c.amalgamationId != aid
    requires CountsMatch(a, cs, aid)
    ensures CountsMatch(a, cs[id := c], aid)
  {
    InsertGrowsCounts(cs, id, c, aid, Plausible);
    InsertGrowsCounts(cs, id, c, aid, NotPlausible);
    InsertGrowsCounts(cs, id, c, aid, Irrelevant);
  }

  /** Creating a contribution keeps every counter equal to the number of live contributions it counts. */
  lemma CreateContributionKeepsTallies(st: Store, actor: Id, amalgamationId: Id, text: string,
                                       evaluation: string, now: int, newId: Id)
    requires newId !in st.contributions
    requires TallyMatches(st)
    ensures TallyMatches(CreateContribution(st, actor, amalgamationId, text, evaluation, now, newId).store)
  {
    var r := CreateContribution(st, actor, amalgamationId, text, evaluation, now, newId);
    if amalgamationId in st.amalgamations && ParseEvaluation(evaluation).Some? && ValidText(text) {
      var e := ParseEvaluation(evaluation).value;
      var c := NewContribution(amalgamationId, actor, text, e, now);
      assert r == SaveContribution(st, newId, c, e);
      SaveContributionKeepsTallies(st, newId, c, e);
    }
  }

  /** The writes of an accepted contribution keep every amalgamation's counters matching. */
  lemma SaveContributionKeepsTallies(st: Store, newId: Id, c: Contribution, e: Evaluation)
    requires newId !in st.contributions && c.amalgamationId in st.amalgamations
    requires TallyMatches(st) && !c.isRemoved && c.evaluation == e
    ensures TallyMatches(SaveContribution(st, newId, c, e).store)
  {
    var st' := SaveContribution(st, newId, c, e).store;
    var a' := st'.amalgamations[c.amalgamationId];
    forall aid | aid in st'.amalgamations
      ensures CountsMatch(st'.amalgamations[aid], st'.contributions, aid)
    {
      if aid == c.amalgamationId {
        CastKeepsCounts(st.amalgamations[aid], a', st.contributions, newId, c);
      } else {
        InsertElsewhereKeepsCounts(st.amalgamations[aid], st.contributions, newId, c, aid);
      }
    }
  }

  /**
   * A new amalgamation starts with zero counters, and no stored contribution
   * can point at its fresh id, so the match extends to it.
   */
  lemma CreateAmalgamationKeepsTallies(st: Store, actor: Id, req: CreateRequest, now: int, newId: Id)
    requires newId !in st.amalgamations
    requires Consistent(st) && TallyMatches(st)
    ensures TallyMatches(CreateAmalgamation(st, actor, req, now, newId).store)
  {
    var r := CreateAmalgamation(st, actor, req, now, newId);
    if r.response.Ok? {
      var a := r.response.body;
      assert forall k | k in st.contributions :: st.contributions[k].amalgamationId != newId;
      UnreferencedMatchesZero(a, st.contributions, newId);
      TallyMatchesExtended(st, r.store, newId, a);
    }
  }

  /** No contribution points at `aid`, so counters that are all zero count its live contributions. */
  lemma UnreferencedMatchesZero(a: Amalgamation, cs: map<Id, Contribution>, aid: Id)
    requires forall k | k in cs :: cs[k].amalgamationId != aid
    requires a.totalVotes == 0 && forall e :: Counter(a, e) == 0
    ensures CountsMatch(a, cs, aid)
  {
    assert LiveIds(cs, aid) == {};
    forall e ensures LiveVoters(cs, aid, e) == {} {
      assert LiveVoters(cs, aid, e) <= LiveIds(cs, aid);
    }
    assert Counter(a, Plausible) == 0 && Counter(a, NotPlausible) == 0 && Counter(a, Irrelevant) == 0;
  }

  /** Adding one amalgamation whose counters match, with the contributions unchanged, keeps the match. */
  lemma TallyMatchesExtended(st: Store, st': Store, aid: Id, a: Amalgamation)
    requires TallyMatches(st) && CountsMatch(a, st.contributions, aid)
    requires st'.contributions == st.contributions && st'.amalgamations == st.amalgamations[aid := a]
    ensures TallyMatches(st')
  {
  }

  /** A status change touches no counter and no vote. */
  lemma UpdateStatusKeepsTallies(st: Store, actor: Id, id: Id, status: string)
    requires TallyMatches(st)
    ensures TallyMatches(UpdateStatus(st, actor, id, status).store)
  {
    TallyMatchesFrame(st, UpdateStatus(st, actor, id, status).store);
  }

  /** An edit changes text and history only, never the vote or the removal flag. */
  lemma EditContributionKeepsTallies(st: Store, actor: Id, id: Id, text: string, now: int)
    requires TallyMatches(st)
    ensures TallyMatches(EditContribution(st, actor, id, text, now).store)
  {
    TallyMatchesFrame(st, EditContribution(st, actor, id, text, now).store);
  }

  /** A like changes likes only. */
  lemma ToggleLikeKeepsTallies(st: Store, actor: Id, id: Id)
    requires TallyMatches(st)
    ensures TallyMatches(ToggleLike(st, actor, id).store)
  {
    TallyMatchesFrame(st, ToggleLike(st, actor, id).store);
  }

  /** Removing a live contribution from `aid` shrinks exactly its sets, by that id. */
  lemma RemoveShrinksSets(cs: map<Id, Contribution>, id: Id, aid: Id, e: Evaluation)
    requires id in cs && !cs[id].isRemoved
    ensures var c := cs[id];
      && LiveIds(cs[id := c.(isRemoved := true)], aid)
           == LiveIds(cs, aid) - (if c.amalgamationId == aid then {id} else {})
      && LiveVoters(cs[id := c.(isRemoved := true)], aid, e)
           == LiveVoters(cs, aid, e) - (if c.amalgamationId == aid && c.evaluation == e then {id} else {})
  {
  }

  /** Deleting a contribution that is still live keeps every counter exact. */
  lemma DeleteLiveContributionKeepsTallies(st: Store, actor: Id, id: Id)
    requires TallyMatches(st)
    requires id in st.contributions && !st.contributions[id].isRemoved
    ensures TallyMatches(DeleteContribution(st, actor, id).store)
  {
    var r := DeleteContribution(st, actor, id);
    var c := st.contributions[id];
    if c.userId == actor {
      forall aid | aid in r.store.amalgamations
        ensures CountsMatch(r.store.amalgamations[aid], r.store.contributions, aid)
      {
        RemoveShrinksSets(st.contributions, id, aid, Plausible);
        RemoveShrinksSets(st.contributions, id, aid, NotPlausible);
        RemoveShrinksSets(st.contributions, id, aid, Irrelevant);
        if aid == c.amalgamationId {
          var a := st.amalgamations[aid];
          var a' := r.store.amalgamations[aid];
          assert CountsMatch(a, st.contributions, aid);
          assert id in LiveIds(st.contributions, aid);
          assert id in LiveVoters(st.contributions, aid, c.evaluation);
          match c.evaluation
          case Plausible =>
            assert a'.plausibleVotes == a.plausibleVotes - 1;
          case NotPlausible =>
            assert a'.notPlausibleVotes == a.notPlausibleVotes - 1;
          case Irrelevant =>
            assert a'.irrelevantVotes == a.irrelevantVotes - 1;
        }
      }
    }
  }

  /**
   * As written, a second DELETE of the same contribution by its author passes
   * every guard and withdraws the vote again, so the counters no longer count
   * the live contributions.
   */
  lemma DoubleDeleteBreaksTallies(st: Store, actor: Id, id: Id)
    requires TallyMatches(st)
    requires id in st.contributions && !st.contributions[id].isRemoved
    requires st.contributions[id].userId == actor
    requires st.contributions[id].amalgamationId in st.amalgamations && actor in st.users
    ensures var once := DeleteContribution(st, actor, id);
      var twice := DeleteContribution(once.store, actor, id);
      && once.response.Ok? && twice.response.Ok?
      && !TallyMatches(twice.store)
  {
    var c := st.contributions[id];
    var aid := c.amalgamationId;
    var once := DeleteContribution(st, actor, id);
    var twice := DeleteContribution(once.store, actor, id);
    assert CountsMatch(st.amalgamations[aid], st.contributions, aid);
    RemoveShrinksSets(st.contributions, id, aid, c.evaluation);
    assert id in LiveIds(st.contributions, aid);
    var live := LiveIds(once.store.contributions, aid);
    assert |live| == |LiveIds(st.contributions, aid)| - 1;
    assert once.store.amalgamations[aid].totalVotes == |live|;
    assert once.store.contributions[id] == c.(isRemoved := true);
    assert twice.store.contributions == once.store.contributions;
    assert twice.store.amalgamations[aid].totalVotes == |live| - 1;
    assert !CountsMatch(twice.store.amalgamations[aid], twice.store.contributions, aid);
  }

  const AlreadyRemovedMessage := "Contribution already removed"

  /**
   * DELETE with the missing guard: a contribution that is already removed is
   * refused with no write; otherwise the handler behaves as written.
   */
  function DeleteContributionOnce(st: Store, actor: Id, id: Id): (r: Reply<string>)
    ensures id in st.contributions && st.contributions[id].userId == actor && st.contributions[id].isRemoved ==>
      r == Reply(BadRequest(AlreadyRemovedMessage), st)
    ensures !(id in st.contributions && st.contributions[id].userId == actor && st.contributions[id].isRemoved) ==>
      r == DeleteContribution(st, actor, id)
    ensures TallyMatches(st) ==> TallyMatches(r.store)
  {
    if id in st.contributions && st.contributions[id].userId == actor && st.contributions[id].isRemoved then
      Reply(BadRequest(AlreadyRemovedMessage), st)
    else
      if TallyMatches(st) && id in st.contributions && st.contributions[id].userId == actor then
        DeleteLiveContributionKeepsTallies(st, actor, id);
        DeleteContribution(st, actor, id)
      else
        DeleteContribution(st, actor, id)
  }
}

=== FILE: text.dfy ===
/**
 * The string operations the application relies on: JavaScript's `trim`,
 * `split(',')` and `toLowerCase`, and the binary string order MongoDB sorts by.
 */
module Text {

  /** ECMAScript's WhiteSpace and LineTerminator code points, which `String.prototype.trim` strips. */
  predicate IsWhitespace(c: char) {
    || c == ' ' || c == '\t' || c == '\n' || c == '\U{B}' || c == '\U{C}' || c == '\r'
    || c == '\U{A0}' || c == '\U{1680}' || ('\U{2000}' <= c <= '\U{200A}')
    || c == '\U{2028}' || c == '\U{2029}' || c == '\U{202F}' || c == '\U{205F}'
    || c == '\U{3000}' || c == '\U{FEFF}'
  }

  /** Neither the first nor the last character is whitespace. */
  predicate IsTrimmed(s: string) {
    s == [] || (!IsWhitespace(s[0]) && !IsWhitespace(s[|s| - 1]))
  }

  /** Drops leading whitespace. */
  function TrimStart(s: string): (r: string)
    ensures |r| <= |s| && r == s[|s| - |r|..]
    ensures r == [] || !IsWhitespace(r[0])
    ensures forall i | 0 <= i < |s| - |r| :: IsWhitespace(s[i])
  {
    if s != [] && IsWhitespace(s[0]) then TrimStart(s[1..]) else s
  }

  /** Drops trailing whitespace. */
  function TrimEnd(s: string): (r: string)
    ensures |r| <= |s| && r == s[..|r|]
    ensures r == [] || !IsWhitespace(r[|r| - 1])
    ensures forall i | |r| <= i < |s| :: IsWhitespace(s[i])
  {
    if s != [] && IsWhitespace(s[|s| - 1]) then TrimEnd(s[..|s| - 1]) else s
  }

  /** Number of leading characters `Trim` drops. */
  function TrimOffset(s: string): (k: nat)
    ensures k <= |s|
  {
    |s| - |TrimStart(s)|
  }

  /**
   * `s.trim()`: the result is the contiguous middle of `s` that starts and ends
   * with a non-whitespace character, and everything cut off is whitespace.
   */
  function Trim(s: string): (r: string)
    ensures IsTrimmed(r)
    ensures TrimOffset(s) + |r| <= |s| && r == s[TrimOffset(s)..TrimOffset(s) + |r|]
    ensures forall i | 0 <= i < TrimOffset(s) :: IsWhitespace(s[i])
    ensures forall i | TrimOffset(s) + |r| <= i < |s| :: IsWhitespace(s[i])
  {
    var t := TrimStart(s);
    var r := TrimEnd(t);
    assert t == s[TrimOffset(s)..];
    r
  }

  /** Trimming a trimmed string changes nothing. */
  lemma TrimmedIsFixed(s: string)
    requires IsTrimmed(s)
    ensures Trim(s) == s
  {
  }

  /** Trimming is idempotent. */
  lemma TrimIdempotent(s: string)
    ensures Trim(Trim(s)) == Trim(s)
  {
    TrimmedIsFixed(Trim(s));
  }

  /** Trimming only removes characters. */
  lemma TrimKeepsAbsent(s: string, c: char)
    requires c !in s
    ensures c !in Trim(s)
  {
    var r := Trim(s);
    var k := TrimOffset(s);
    forall i | 0 <= i < |r| ensures r[i] != c {
      assert r[i] == s[k + i];
    }
  }

  /**
   * `s.split(sep)` for a one-character separator: the pieces between
   * consecutive separators, in order, empty pieces included; never an empty list.
   */
  function Split(s: string, sep: char): (r: seq<string>)
    ensures |r| >= 1
    ensures forall i | 0 <= i < |r| :: sep !in r[i]
  {
    if s == [] then [[]]
    else
      var rest := Split(s[1..], sep);
      if s[0] == sep then [[]] + rest
      else [[s[0]] + rest[0]] + rest[1..]
  }

  /** `pieces.join(sep)`. */
  function Join(pieces: seq<string>, sep: char): string
    requires |pieces| >= 1
  {
    if |pieces| == 1 then pieces[0] else pieces[0] + [sep] + Join(pieces[1..], sep)
  }

  /** Joining the pieces of a split gives back the original string. */
  lemma {:induction false} JoinSplit(s: string, sep: char)
    ensures Join(Split(s, sep), sep) == s
  {
    if s != [] {
      JoinSplit(s[1..], sep);
      var rest := Split(s[1..], sep);
      if s[0] != sep {
        var r := Split(s, sep);
        assert r[0] == [s[0]] + rest[0] && r[1..] == rest[1..];
        if |rest| > 1 {
          assert Join(r, sep) == [s[0]] + rest[0] + [sep] + Join(rest[1..], sep);
        }
      }
    }
  }

  /** Splitting a join of separator-free pieces gives back the pieces. */
  lemma {:induction false} SplitJoin(pieces: seq<string>, sep: char)
    requires |pieces| >= 1
    requires forall i | 0 <= i < |pieces| :: sep !in pieces[i]
    ensures Split(Join(pieces, sep), sep) == pieces
  {
    if |pieces| == 1 {
      SplitSeparatorFree(pieces[0], sep);
    } else {
      SplitJoin(pieces[1..], sep);
      SplitPrefix(pieces[0], Join(pieces[1..], sep), sep);
    }
  }

  /** A string without the separator splits into itself. */
  lemma {:induction false} SplitSeparatorFree(s: string, sep: char)
    requires sep !in s
    ensures Split(s, sep) == [s]
  {
    if s != [] {
      SplitSeparatorFree(s[1..], sep);
      assert [s[0]] + s[1..] == s;
    }
  }

  /** Splitting `p + sep + t` for a separator-free `p` yields `p` followed by the pieces of `t`. */
  lemma {:induction false} SplitPrefix(p: string, t: string, sep: char)
    requires sep !in p
    ensures Split(p + [sep] + t, sep) == [p] + Split(t, sep)
  {
    if p == [] {
      assert p + [sep] + t == [sep] + t;
      assert ([sep] + t)[1..] == t;
    } else {
      SplitPrefix(p[1..], t, sep);
      var s := p + [sep] + t;
      assert s[0] == p[0] && s[1..] == p[1..] + [sep] + t;
      assert [p[0]] + p[1..] == p;
    }
  }

  /** ASCII case folding of one character; other characters are kept. */
  function LowerChar(c: char): char {
    if 'A' <= c <= 'Z' then (c as int + 32) as char else c
  }

  /** `s.toLowerCase()` restricted to ASCII letters. */
  function ToLower(s: string): (r: string)
    ensures |r| == |s|
    ensures forall i | 0 <= i < |s| :: r[i] == LowerChar(s[i])
    ensures forall i | 0 <= i < |r| :: !('A' <= r[i] <= 'Z')
  {
    if s == [] then [] else [LowerChar(s[0])] + ToLower(s[1..])
  }

  /** Lowercasing preserves whitespace positions, so it commutes with trimming. */
  lemma LowerKeepsWhitespace(c: char)
    ensures IsWhitespace(LowerChar(c)) <==> IsWhitespace(c)
  {
  }

  /** Lowercasing twice is lowercasing once. */
  lemma ToLowerIdempotent(s: string)
    ensures ToLower(ToLower(s)) == ToLower(s)
  {
  }

  /** Binary (code-point) string order: `a` is a prefix of `b` or is smaller at the first difference. */
  predicate LexLe(a: string, b: string) {
    a == [] || (b != [] && (a[0] < b[0] || (a[0] == b[0] && LexLe(a[1..], b[1..]))))
  }

  /** Any two strings are comparable. */
  lemma {:induction false} LexLeTotal(a: string, b: string)
    ensures LexLe(a, b) || LexLe(b, a)
  {
    if a != [] && b != [] && a[0] == b[0] {
      LexLeTotal(a[1..], b[1..]);
    }
  }

  /** The order is transitive. */
  lemma {:induction false} LexLeTransitive(a: string, b: string, c: string)
    requires LexLe(a, b) && LexLe(b, c)
    ensures LexLe(a, c)
  {
    if a != [] && b != [] && c != [] && a[0] == b[0] == c[0] {
      LexLeTransitive(a[1..], b[1..], c[1..]);
    }
  }

  /** The order is antisymmetric, so it orders distinct strings strictly. */
  lemma {:induction false} LexLeAntisymmetric(a: string, b: string)
    requires LexLe(a, b) && LexLe(b, a)
    ensures a == b
  {
    if a != [] && b != [] {
      LexLeAntisymmetric(a[1..], b[1..]);
      assert a == [a[0]] + a[1..] && b == [b[0]] + b[1..];
    }
  }

  /** `t` occurs in `s` at position `i`. */
  predicate OccursAt(t: string, s: string, i: nat) {
    i + |t| <= |s| && s[i..i + |t|] == t
  }
}
